=== FILE: README.md ===
# Catalog and display rules of a marketplace/forum client

This project is a Dafny model of the deterministic core of a React Native marketplace
and forum client. Each part below is a module of pure functions over immutable
datatypes.

- **`AppStore`** is the catalog part of the global store (`store/useAppStore.ts`). It
  holds the catalog state record, and each action is a transition function:
  - filter navigation: `selectFilter`, `goBackFilter`, `resetFilters`;
  - the browsing cursor: `nextProduct`, `previousProduct`;
  - the follow, like and save toggles;
  - the position-based enrichment that `loadProducts` applies to a fetched list.

  Its invariant `Valid` is preserved by every action. `Valid` says:
  - the breadcrumb is a path of parent ids;
  - the filter set is the one under the breadcrumb's end;
  - the displayed list is either the whole catalog or a non-empty, order-preserving
    selection from it.
- **`FilterConfig`** is the static category tree and its fallback lookup
  (`data/filterConfig.ts`).
- **`Api`** covers the pure parts of the product normalisation in `services/api.ts`:
  - JavaScript truthiness of loosely typed backend fields;
  - the `||` fallbacks;
  - the price choice;
  - media parsing;
  - the discount percentage, with `Math.round` as round-half-up.
- **`Register`** is the sign-up form's ordered validation and its role mapping.
  **`RootLayout`** is the authentication route guard.
- **`OwnerInfo`**, **`Avatar`** and **`DetailView`** are the initials and label
  helpers, and the two message updates (comment appended, reactions replaced) of the
  detail panel.
- **`StarRating`** is the star-glyph row. Its loop is proved against a closed form:
  the filled glyphs come first, and there are `min(max, floor + half)` of them.
- **`Strings`** and **`Seqs`** hold the JavaScript library behaviour that the above
  relies on:
  - `split(' ')`, `join`, `trim()` with the ECMAScript whitespace set, and ASCII case
    mapping;
  - `substring(0, n)`;
  - `Array.prototype.filter` (`Keep`), with its membership and order facts.

Things outside the model become parameters:
- `parseFloat` on text and `JSON.parse` are opaque function parameters, and `None`
  stands for `NaN` or a parse error;
- server replies (a new comment, the updated reaction lists, the fetched product list)
  are `Result` parameters.

Four behaviours of the code that are easy to miss:
- **Discount.** The discount is computed from the raw `base_price` and `current_price`
  (services/api.ts:136). It is not computed from the `price` and `originalPrice` the
  product ends up with, so it need not agree with them.
- **Price choice.** The price is the first *truthy* of `price`, `current_price` and
  `base_price`: a zero price falls through to the next field.
- **Cursor.** `nextProduct` does not clamp an index that is already past the end; it
  only refuses to step further.
- **Password confirmation.** The form keeps a password-confirmation field but never
  reads it. The password itself is sent as the confirmation (`Register.ConfirmationIgnored`).

## Model

| member | source | states |
|---|---|---|
| Strings.Split | components/ui/Avatar.tsx:37 | `split(' ')` always yields at least one part, no part holds a space, and joining the parts with spaces gives back the text |
| Strings.JoinStartsWithFirstPart | components/home/OwnerInfo.tsx:26 | `Join`, the text that `split(' ')` breaks up, opens with the first part, followed by the separator when there are more parts |
| Strings.SplitJoin | components/ui/Avatar.tsx:37 | splitting undoes joining whenever no part contains the separator |
| Strings.Trim | components/home/DetailView.tsx:35 | the trimmed text starts and ends with a non-whitespace character, and it is empty exactly when the whole text is whitespace |
| Strings.ToLower | store/useAppStore.ts:267 | lower-casing keeps the length and maps each character independently |
| Strings.ToUpper | components/home/OwnerInfo.tsx:28-30 | `toUpperCase()` keeps the length and upper-cases each character independently |
| Strings.UpperHasNoLowerCase | components/home/OwnerInfo.tsx:28 | `toUpperCase()` leaves no lower-case ASCII letter |
| Seqs.KeepMembers | store/useAppStore.ts:266-268 | `filter` keeps exactly the elements that pass the test |
| Seqs.KeepSubsequence | store/useAppStore.ts:280-284 | `filter` keeps the original order (the result is a subsequence) |
| Seqs.KeepCounts | store/useAppStore.ts:266-283 | `filter` keeps each passing element exactly as often as the list holds it, and drops every other one |
| Seqs.Take | store/useAppStore.ts:196 | `slice(0, n)` and `substring(0, n)` give a prefix of at most `n` elements, exactly `n` when the list is long enough |
| Seqs.KeepAppend | store/useAppStore.ts:218 | filtering distributes over concatenation |
| Seqs.KeepNoDuplicates | store/useAppStore.ts:218 | filtering a duplicate-free list leaves it duplicate-free |
| FilterConfig.GetFiltersForCategory | data/filterConfig.ts:86-88 | a known key gives its own list, any other id gives the root list, and every list has six entries |
| FilterConfig.TreeKeys | data/filterConfig.ts:9-84 | the keys are `root` and the four categories, and each is a parent (non-empty list) |
| FilterConfig.RootShape | data/filterConfig.ts:10-51 | the root lists the four categories, then the two actions, with those kinds |
| FilterConfig.LeavesAreNotKeys | data/filterConfig.ts:52-84 | each category has six children, and no child id or action id is a key |
| Api.ParseFloat | services/api.ts:134-136 | numbers pass through, text goes to the text parser, and absent, boolean or object fields give `NaN` |
| Api.Round | services/api.ts:163 | `Math.round` gives the integer within one half of its argument, halves rounding up |
| Api.CalculateDiscount | services/api.ts:159-164 | there is no discount exactly when a price is missing, `NaN` or zero, or the prices are equal; otherwise it is the nearest integer to the percentage off the base price |
| Api.DiscountExample | services/api.ts:163 | base 100 and current 80 give 20; equal prices give none |
| Api.DiscountBounds | services/api.ts:163 | a current price strictly below a positive base gives a discount from 0 to 100 |
| Api.DiscountNegativeWhenRaised | services/api.ts:163 | a price raised by more than half a percent gives a negative discount (no clamping) |
| Api.NormaliseMedia | services/api.ts:106-128 | a text field is parsed and a parse error gives no entries, an array is kept, and anything else gives no entries |
| Api.Thumbnail | services/api.ts:138 | the first image, or the empty text when there are none |
| Api.ChoosePrice | services/api.ts:134 | the price is parsed from the first truthy of `price`, `current_price` and `base_price` |
| Api.ChooseOriginalPrice | services/api.ts:135 | a truthy `originalPrice` wins; otherwise a truthy base price is parsed; otherwise there is none |
| Api.ChooseCategory | services/api.ts:139 | the category is never empty, and `Uncategorized` stands in for a missing one |
| Api.ChooseRating | services/api.ts:140 | the rating is never zero, and 4.5 stands in for a missing or zero one |
| Api.ChooseReviewCount | services/api.ts:141 | the review count, or 0 when missing |
| Api.ChooseFeatured | services/api.ts:142 | a given flag wins and a `null` flag means not featured; only a missing flag falls back to: featured iff approved and active |
| Api.Transform | services/api.ts:105-156 | each field of the client product relates to the backend record as above: a present description is kept, the owner name and role fall back to the nested user's when missing or empty, the default shipping is free in 5 days, and no subcategory is set |
| AppStore.LastFilter | store/useAppStore.ts:278 | the last breadcrumb entry, and `undefined` exactly when the breadcrumb is empty |
| AppStore.InitialValid | store/useAppStore.ts:65-80 | the initial state satisfies the catalog invariant |
| AppStore.NeverEmpty | store/useAppStore.ts:273 | in a valid state the displayed list is not empty while the catalog is not |
| AppStore.Filtered | store/useAppStore.ts:266-283 | the filtered list is an ordered selection of the catalog holding every matching product as often as the catalog does and nothing else; it is empty iff nothing matches |
| AppStore.Matches | store/useAppStore.ts:266-284 | for a parent id only the category counts, ignoring case, whatever the breadcrumb; for any other id a match needs a non-empty breadcrumb whose last entry equals the category ignoring case, and a subcategory |
| AppStore.SelectFilter | store/useAppStore.ts:255-291 | a parent id extends the breadcrumb and shows that key's list; any other id keeps both. The displayed list is exactly the matching products in catalog order, each as often as in the catalog, or the whole catalog when none match. The cursor returns to 0, nothing else changes, and the invariant is preserved |
| AppStore.GoBackFilter | store/useAppStore.ts:293-308 | a no-op at the root. Otherwise it drops exactly the last entry, shows the new end's list (the root's when the breadcrumb is empty or the id is not a key), shows the whole catalog, resets the cursor and preserves the invariant |
| AppStore.ResetFilters | store/useAppStore.ts:310-316 | from any state: empty breadcrumb, the root filter set, the whole catalog, the cursor at 0, a valid state, and nothing else changed |
| AppStore.ResetIdempotent | store/useAppStore.ts:310-316 | resetting twice equals resetting once |
| AppStore.NextProduct | store/useAppStore.ts:239-245 | the cursor moves forward iff it is before the last displayed product, and otherwise stays; no wrap-around |
| AppStore.PreviousProduct | store/useAppStore.ts:247-253 | the cursor moves back iff it is positive, and otherwise stays; a non-negative cursor stays non-negative |
| AppStore.Toggle | store/useAppStore.ts:215-220 | a present id has every occurrence removed and nothing else lost; an absent id is appended at the end |
| AppStore.ToggleTwiceRestores | store/useAppStore.ts:215-234 | toggling an absent id twice restores the list |
| AppStore.ToggleKeepsNoDuplicates | store/useAppStore.ts:215-234 | a duplicate-free list stays duplicate-free |
| AppStore.ToggleFollow | store/useAppStore.ts:215-220 | flips whether the user is followed and touches nothing else |
| AppStore.ToggleLike | store/useAppStore.ts:222-227 | flips whether the review is liked and touches nothing else |
| AppStore.ToggleSave | store/useAppStore.ts:229-234 | flips whether the product is saved and touches nothing else |
| AppStore.Enrich | store/useAppStore.ts:188-199 | keeps the length. Product `i` gets category `i % 4` and that category's subcategory `i % 6`, and keeps the first three images (all of them when there are fewer). An empty video list becomes the placeholder. Everything else is kept |
| AppStore.EnrichIdempotent | store/useAppStore.ts:188-199 | enriching an enriched list changes nothing |
| AppStore.SubcategoriesMatchTree | store/useAppStore.ts:180-186 | the store's category and subcategory lists are the filter tree's keys and children, in the same order |
| AppStore.EnrichedPairsAreInTree | store/useAppStore.ts:188-190 | every enriched subcategory is a child of its category in the filter tree |
| AppStore.LoadProducts | store/useAppStore.ts:174-212 | success shows the enriched list as both catalog and display and keeps the cursor and breadcrumb. Failure keeps both lists and sets the error. The invariant is preserved |
| AppStore.SelectAll | store/useAppStore.ts:255-291 | a run of selections keeps the catalog, only extends the breadcrumb, and preserves the invariant |
| AppStore.LeafAtRootShowsAll | store/useAppStore.ts:278-287 | a non-parent id chosen at the root never matches, so the whole catalog is shown |
| AppStore.GoBackRestoresCatalog | store/useAppStore.ts:293-308 | after any non-empty run of selections, one step back shows the whole catalog |
| AppStore.BreadcrumbAfterChild | store/useAppStore.ts:258-289 | a category and then one of its children leave the breadcrumb ending at the category |
| AppStore.RootAndRepeatedSelections | store/useAppStore.ts:258-263 | `root` is pushed like a category, and the same category chosen twice is pushed twice |
| AppStore.OnlyMaleIsMale | store/useAppStore.ts:267 | among the four categories, only `male` matches `male` ignoring case |
| AppStore.MaleOfTen | store/useAppStore.ts:180-199 | of ten enriched products, exactly positions 0, 4 and 8 are `male`, in that order |
| AppStore.ScenarioMale | store/useAppStore.ts:255-275 | loading ten products and choosing `male` shows positions 0, 4 and 8 with breadcrumb `[male]` |
| AppStore.ScenarioRings | store/useAppStore.ts:276-290 | then choosing `rings` shows only position 0 and keeps the breadcrumb |
| Register.ErrorText | app/auth/register.tsx:34-47 | every refusal has a non-empty alert text |
| Register.BackendRoleOf | app/auth/register.tsx:51 | the backend role is `buyer` iff the form role is `patient` |
| Register.Validate | app/auth/register.tsx:33-52 | a missing name, email or password is refused first; then unaccepted terms; then a password under 8 characters; otherwise the request carries the form's fields, the password as confirmation and the mapped role |
| Register.ConfirmationIgnored | app/auth/register.tsx:52 | the confirmation field never affects the outcome |
| Register.PhoneOptional | app/auth/register.tsx:34 | the phone is not required, and an empty one is passed through |
| Register.MissingFieldsComeFirst | app/auth/register.tsx:34-42 | a missing field is reported whatever else is wrong |
| RootLayout.Decide | app/_layout.tsx:17-27 | signed out outside the auth group goes to login, signed in inside it goes to the tabs, and the other two cases do nothing |
| RootLayout.Target | app/_layout.tsx:22-25 | the login route is inside the auth group and the tabs route is outside it |
| RootLayout.RedirectSettles | app/_layout.tsx:17-27 | after a redirect the guard asks for no further one |
| RootLayout.RedirectMoves | app/_layout.tsx:18-25 | a redirect always changes whether the route is in the auth group |
| OwnerInfo.InitialsAsWritten | components/home/OwnerInfo.tsx:23-31 | `U` for a missing name; two parts with letters give both first letters upper-cased; a single part gives its first two characters upper-cased |
| OwnerInfo.FirstCharAsText | components/home/OwnerInfo.tsx:28 | `${part[0]}` renders the first character, or the text `undefined` for an empty part |
| OwnerInfo.SplitDoubleSpace | components/home/OwnerInfo.tsx:26 | two words joined by a doubled space split into the first word, an empty part and the last word |
| OwnerInfo.DoubleSpaceShowsUndefined | components/home/OwnerInfo.tsx:26-29 | a doubled space yields the first letter followed by `UNDEFINED` |
| OwnerInfo.Initials | components/home/OwnerInfo.tsx:23-31 | the corrected rule: always one or two characters with no lower-case letter, and `U` for a missing name |
| OwnerInfo.DoubleSpaceSkipped | components/home/OwnerInfo.tsx:26-28 | under the corrected rule a doubled space is skipped: `Ana  Silva` gets `AS` |
| OwnerInfo.InitialsAgree | components/home/OwnerInfo.tsx:26-30 | the corrected rule equals the written one whenever the first two parts are non-empty |
| OwnerInfo.InitialsDisagreeOnEmptyPart | components/home/OwnerInfo.tsx:28 | with an empty first or second part the written rule is at least nine characters long |
| OwnerInfo.DisplayName | components/home/OwnerInfo.tsx:33-35 | the name, or `Usuário` when missing; never empty |
| OwnerInfo.RoleText | components/home/OwnerInfo.tsx:37-39 | the upper-cased role, or `USUÁRIO` when missing; never empty |
| Avatar.WordInitials | components/ui/Avatar.tsx:37-39 | at most one letter per word, the first being the first word's first letter |
| Avatar.WordInitialsLength | components/ui/Avatar.tsx:38-39 | exactly one letter per non-empty word |
| Avatar.WordInitialsAppend | components/ui/Avatar.tsx:38-39 | word initials distribute over concatenation |
| Avatar.EmptyWordIgnored | components/ui/Avatar.tsx:38-39 | an empty word contributes nothing |
| Avatar.GetInitials | components/ui/Avatar.tsx:35-42 | at most two characters, none a lower-case letter |
| Avatar.AvatarInitials | components/ui/Avatar.tsx:14 | with no name the default `User` gives `U` |
| Avatar.OneWordOneLetter | components/ui/Avatar.tsx:35-42 | a one-word name gives one upper-cased letter |
| Avatar.TwoWordsTwoLetters | components/ui/Avatar.tsx:35-42 | two words give both first letters, upper-cased |
| Avatar.ManyWordsTruncated | components/ui/Avatar.tsx:41 | more words still give only the first two letters |
| Avatar.EmptyNameNoLetters | components/ui/Avatar.tsx:14 | an explicit empty name is not defaulted and shows nothing |
| DetailView.UserName | components/home/DetailView.tsx:21 | the user's name, absent exactly when there is no user |
| DetailView.UserInitialsAsWritten | components/home/DetailView.tsx:20-27 | the owner badge's written rule applied to the current user's name, `U` with no user |
| DetailView.UserInitialsShowUndefined | components/home/DetailView.tsx:24 | a user name with a doubled space shows `UNDEFINED` |
| DetailView.UserInitials | components/home/DetailView.tsx:20-27 | the corrected rule: one or two characters with no lower-case letter, `U` with no user or an empty name |
| DetailView.UserInitialsSkipEmptyPart | components/home/DetailView.tsx:22-24 | under the corrected rule a user name with a doubled space shows both first letters |
| DetailView.CommentInitials | components/home/DetailView.tsx:175 | one upper-cased letter per non-empty word, the avatar's letters but not truncated to two, or `U` when there is no non-empty word |
| DetailView.CommentInitialsNotTruncated | components/home/DetailView.tsx:175 | three words give three letters (no truncation) |
| DetailView.AddComment | components/home/DetailView.tsx:38 | the old comments followed by the new one; nothing else changes |
| DetailView.ApplyReactions | components/home/DetailView.tsx:54 | the three reaction lists are the reply's; nothing else changes |
| DetailView.ReactionsLastWins | components/home/DetailView.tsx:54 | two replies in a row leave the second |
| DetailView.CommentAndReactionsCommute | components/home/DetailView.tsx:38-54 | a comment and a reaction update commute |
| DetailView.HandlePostComment | components/home/DetailView.tsx:34-48 | sends the untrimmed text iff the trimmed text is non-empty, there is a token and the item is a message. Only a successful reply appends the comment and clears the input; otherwise the text is kept |
| DetailView.BlankNeverPosted | components/home/DetailView.tsx:35 | whitespace-only text is never sent and is kept in the input |
| DetailView.PostAddsOneComment | components/home/DetailView.tsx:37-42 | a successful post raises the comment count by one |
| DetailView.HandleInteraction | components/home/DetailView.tsx:50-62 | sends the interaction iff there is a token and a message; an update happens iff the reply succeeds, and it replaces the reaction lists |
| DetailView.ViewerEmail | components/home/DetailView.tsx:144 | the user's email, or the empty text with no user |
| DetailView.HeartFilled | components/home/DetailView.tsx:144 | with a user, the heart is filled iff their email is a favourite; a filled heart always comes with a positive favourite count |
| DetailView.HeartFollowsReply | components/home/DetailView.tsx:142-148 | after a successful reaction the heart and the count follow the reply's favourite list, and the comment count is unchanged |
| DetailView.HeartWithoutUser | components/home/DetailView.tsx:144 | with no user the heart is filled iff the empty text is a favourite |
| StarRating.Trunc | components/ui/StarRating.tsx:27 | truncation toward zero: floor for non-negative values, ceiling for negative ones |
| StarRating.FracPart | components/ui/StarRating.tsx:27 | `% 1` lies strictly between -1 and 1, takes the sign of the rating, and equals the part above the floor for non-negative ratings |
| StarRating.HasHalfStar | components/ui/StarRating.tsx:27 | a half star is drawn iff the rating is non-negative and at least one half above its floor |
| StarRating.FilledCount | components/ui/StarRating.tsx:26-35 | the filled count is at most the number of glyphs |
| StarRating.Glyph | components/ui/StarRating.tsx:30-36 | each glyph is a filled or an empty star |
| StarRating.RenderStars | components/ui/StarRating.tsx:24-40 | exactly `maxRating` glyphs (none if not positive). Glyph `i` is filled iff `i` is below the floor, or at it with a half star. The whole row is the filled stars followed by the empty ones |
| StarRating.RenderDefault | components/ui/StarRating.tsx:13-40 | with the default `maxRating` of 5, which every caller leaves in place, the row always holds five glyphs: `FilledCount` filled stars, then empty ones |
| StarRating.StarsShape | components/ui/StarRating.tsx:29-37 | the glyph row is `FilledCount` filled stars followed by empty ones |
| StarRating.FilledFormPrefix | components/ui/StarRating.tsx:29-37 | no empty glyph precedes a filled one |
| StarRating.FilledCountNonNegative | components/ui/StarRating.tsx:32-33 | for a non-negative rating, `min(maxRating, floor + half)` glyphs are filled |
| StarRating.HalfStarRoundsUp | components/ui/StarRating.tsx:27-33 | 3.5 of 5 fills four glyphs, 3.4 fills three, and 7 fills all five |
| StarRating.NegativeRatingEmpty | components/ui/StarRating.tsx:26-27 | a negative rating fills no glyph |

## Left out

- HTTP transport is not modelled: `apiCall`, `fetch`, the timeout and the error-message mapping in `services/api.ts`. It is asynchronous I/O, so fetched lists and server replies are parameters.
- The asynchronous auth actions (`login`, `register`, `logout`, `checkAuth`) are not modelled, because they only call storage and HTTP. The register form is modelled up to the request it hands over.
- The pub/sub relay, the 3D viewer, screen layout and styling are not modelled: they are rendering or vendor code with no local rule.
- The alert dialogs and `router.replace` calls become return values (error values, `Redirect`, the outcome records).
- IEEE-754 arithmetic is not modelled. Prices and ratings are exact reals, `NaN` is `None`, and `Math.round` is `(x + 0.5).Floor`.
- Case mapping covers ASCII letters only. String lengths count characters, not UTF-16 code units, which matters for the 8-character password rule and for `substring`.
- `JSON.parse` returning something other than an array of text is not modelled; the parser parameter returns a list or fails.
- Api.Transform does not model `id.toString()`, the 3D-model fields or `ownerId`. The identifier is taken as text already.
- Api.Transform assumes `originalPrice` and `rating` are numbers, `reviewCount` an integer, `is_active` a boolean and `featured` a boolean or `null`. These are assumptions about the backend record, which the client receives untyped; other JSON values in those fields are not modelled.
- Api.ChooseFeatured returns `false` for a `null` flag, where the code keeps the `null` itself; every reader of the flag treats it as falsy.
- Api.ParseFloat parses an array field through its comma-joined text, but the text parser itself is a parameter.
- The JavaScript prototype keys of `filterTree` (for example `filterTree['constructor']`) are not modelled: the tree is a map with exactly its five keys.
- The `setCatalogMode` and `setSelectedMediaIndex` setters are not modelled: each only assigns one unmodelled field.
- StarRating.RenderStars takes an integer `maxRating`; a fractional `maxRating` is not modelled.
- DetailView.HandlePostComment and DetailView.HandleInteraction assume the `onMessageUpdate` callback is present. Message reaction lists are always present, so the `?.length || 0` fallback is not modelled.
- The mock data files and the login screen are not modelled: they are fixtures or carry no rule beyond an emptiness check.
- Races between overlapping requests are not modelled.

## Findings

| source | as written | input that shows it | evidently intended | confidence | as-written member | corrected member |
|---|---|---|---|---|---|---|
| components/home/OwnerInfo.tsx:28 | `${names[0][0]}${names[1][0]}` reads the first character of an empty part, which renders as the text `undefined` | the owner name `Ana  Silva` (two spaces) gives `AUNDEFINED` | empty parts are skipped, as the avatar skips empty words: the first letters of the first two non-empty parts (`AS` here), or `U` when there are none. Which letters to show then is a guess; the clear intent is only that `undefined` never appears | likely; not executed | OwnerInfo.DoubleSpaceShowsUndefined | OwnerInfo.Initials |
| components/home/DetailView.tsx:24 | the same template reads the first character of an empty part of the current user's name | a current user named `Ana  Silva` gets the badge `AUNDEFINED` | as above: `AS` here; the choice of letters is a guess | likely; not executed | DetailView.UserInitialsShowUndefined | DetailView.UserInitials |

=== FILE: api.dfy ===
/** The pure parts of the remote data gateway (services/api.ts): the shapes it returns,
    the discount formula, and the field fallbacks of `transformProduct`. The HTTP
    transport is not modelled; `parseFloat` on text and `JSON.parse` are parameters. */
module Api {
  import opened Wrappers
  import opened ProductData
  import Strings

  datatype UserRole = Patient | Professional | Association | Store | SuperAdmin

  datatype User = User(id: int, name: string, email: string, phone: Option<string>, role: UserRole)

  datatype Comment = Comment(
    id: string, owner: string, ownerName: string, ownerRole: string,
    content: string, timestamp: string)

  datatype Message = Message(
    id: string, owner: string, ownerName: string, ownerRole: string,
    content: string, timestamp: string,
    comments: seq<Comment>,
    favorite: seq<string>, good: seq<string>, bad: seq<string>)

  /** What the interactions endpoint returns: the three updated reaction lists. */
  datatype Reactions = Reactions(favorite: seq<string>, good: seq<string>, bad: seq<string>)

  /** A field of the backend's loosely typed product record, as JavaScript sees it. */
  datatype Field =
    | Absent                     // undefined or null
    | Flag(b: bool)
    | Number(n: real)
    | Text(s: string)
    | List(items: seq<string>)
    | Record                     // any other object

  /** JavaScript truthiness of a field. */
  predicate Truthy(f: Field) {
    match f
    case Absent => false
    case Flag(b) => b
    case Number(n) => n != 0.0
    case Text(s) => s != ""
    case List(_) => true
    case Record => true
  }

  /** `a || b` on optional text. */
  function OrText(a: Option<string>, b: Option<string>): (r: Option<string>)
    ensures a.Some? && a.value != "" ==> r == a
    ensures !(a.Some? && a.value != "") ==> r == b
  {
    match a
    case Some(s) => if s != "" then a else b
    case None => b
  }

  /** `parseFloat(f)`: numbers pass through, text goes to the (opaque) text parser,
      an array is parsed from its comma-joined text, everything else is `NaN`. */
  function ParseFloat(f: Field, parseText: string -> Option<real>): (r: Option<real>)
    ensures f.Number? ==> r == Some(f.n)
    ensures f.Text? ==> r == parseText(f.s)
    ensures f.Absent? || f.Flag? || f.Record? ==> r.None?
  {
    match f
    case Number(n) => Some(n)
    case Text(s) => parseText(s)
    case List(items) => if |items| == 0 then parseText("") else parseText(Strings.Join(items, ','))
    case _ => None
  }

  /** `Math.round`: the nearest integer, halves rounded up. */
  function Round(x: real): (r: int)
    ensures r as real - 0.5 <= x < r as real + 0.5
  {
    (x + 0.5).Floor
  }

  /** `calculateDiscount(basePrice, currentPrice)`: no discount when either price is
      missing, `NaN` or zero, or when they are equal; otherwise the percentage off the
      base price, rounded, and neither clamped nor sign-checked. */
  function CalculateDiscount(basePrice: Option<real>, currentPrice: Option<real>): (d: Option<int>)
    ensures d.None? <==>
      (|| basePrice.None? || basePrice.value == 0.0
       || currentPrice.None? || currentPrice.value == 0.0
       || basePrice.value == currentPrice.value)
    ensures d.Some? ==>
      var exact := (basePrice.value - currentPrice.value) / basePrice.value * 100.0;
      d.value as real - 0.5 <= exact < d.value as real + 0.5
  {
    match (basePrice, currentPrice)
    case (Some(b), Some(c)) =>
      if b == 0.0 || c == 0.0 || b == c then None
      else Some(Round((b - c) / b * 100.0))
    case _ => None
  }

  /** A base price of 100 and a current price of 80 give 20 percent off. */
  lemma DiscountExample()
    ensures CalculateDiscount(Some(100.0), Some(80.0)) == Some(20)
    ensures CalculateDiscount(Some(80.0), Some(80.0)) == None
  {
  }

  /** A current price below a positive base price gives a discount between 0 and 100. */
  lemma DiscountBounds(b: real, c: real)
    requires 0.0 < c < b
    ensures CalculateDiscount(Some(b), Some(c)).Some?
    ensures 0 <= CalculateDiscount(Some(b), Some(c)).value <= 100
  {
    var q := (b - c) / b;
    assert q * b == b - c;
    assert q <= 0.0 ==> q * b <= 0.0;
    assert q >= 1.0 ==> q * b >= b;
    assert 0.0 < q * 100.0 < 100.0;
  }

  /** A price raised by more than half a percent yields a negative discount. */
  lemma DiscountNegativeWhenRaised(b: real, c: real)
    requires 0.0 < b && c > b + b / 200.0
    ensures CalculateDiscount(Some(b), Some(c)).Some?
    ensures CalculateDiscount(Some(b), Some(c)).value < 0
  {
    var x := (b - c) / b * 100.0;
    assert (b - c) / b < -1.0 / 200.0 by {
      assert b - c < -b / 200.0;
    }
    assert x < -0.5;
  }

  /** The image/video normalisation: text is parsed as JSON (a parse error gives no
      entries), an array is kept as it is, anything else gives no entries. */
  function NormaliseMedia(f: Field, parseJson: string -> Option<seq<string>>): (r: seq<string>)
    ensures f.List? ==> r == f.items
    ensures f.Text? && parseJson(f.s).Some? ==> r == parseJson(f.s).value
    ensures f.Text? && parseJson(f.s).None? ==> r == []
    ensures !f.Text? && !f.List? ==> r == []
  {
    match f
    case Text(s) => (match parseJson(s) case Some(xs) => xs case None => [])
    case List(xs) => xs
    case _ => []
  }

  /** A JSON field that may be missing altogether, present as `null`, or given. */
  datatype Nullable<+T> = Undefined | Null | Defined(value: T)

  /** The owner block of the backend product, when nested. */
  datatype OwnerRef = OwnerRef(name: Option<string>, role: Option<string>)

  /** The backend's product record, with only the fields the transformation reads. */
  datatype RawProduct = RawProduct(
    id: string,
    name: string,
    description: Option<string>,
    price: Field,
    currentPrice: Field,
    basePrice: Field,
    originalPrice: Option<real>,
    images: Field,
    videos: Field,
    category: Option<string>,
    rating: Option<real>,
    reviewCount: Option<int>,
    featured: Nullable<bool>,
    status: Option<string>,
    isActive: bool,
    shipping: Option<Shipping>,
    ownerName: Option<string>,
    ownerRole: Option<string>,
    user: Option<OwnerRef>)

  /** `price || current_price || base_price`: the first truthy of the three. */
  function PriceField(raw: RawProduct): Field {
    if Truthy(raw.price) then raw.price
    else if Truthy(raw.currentPrice) then raw.currentPrice
    else raw.basePrice
  }

  const DefaultCategory: string := "Uncategorized"
  const DefaultRating: real := 4.5
  const DefaultShipping: Shipping := Shipping(true, 5)

  /** `images[0] || ''`: the first image, or the empty text when there is none. */
  function Thumbnail(images: seq<string>): (t: string)
    ensures t == (if |images| > 0 then images[0] else "")
  {
    if |images| > 0 && images[0] != "" then images[0] else ""
  }

  /** The `price` field: `parseFloat(price || current_price || base_price)`. */
  function ChoosePrice(raw: RawProduct, parseText: string -> Option<real>): (r: Option<real>)
    ensures Truthy(raw.price) ==> r == ParseFloat(raw.price, parseText)
    ensures !Truthy(raw.price) && Truthy(raw.currentPrice) ==> r == ParseFloat(raw.currentPrice, parseText)
    ensures !Truthy(raw.price) && !Truthy(raw.currentPrice) ==> r == ParseFloat(raw.basePrice, parseText)
  {
    ParseFloat(PriceField(raw), parseText)
  }

  /** `originalPrice || (base_price ? parseFloat(base_price) : undefined)`. */
  function ChooseOriginalPrice(raw: RawProduct, parseText: string -> Option<real>): (r: Option<real>)
    ensures raw.originalPrice.Some? && raw.originalPrice.value != 0.0 ==> r == raw.originalPrice
    ensures (raw.originalPrice.None? || raw.originalPrice.value == 0.0) && Truthy(raw.basePrice) ==>
              r == ParseFloat(raw.basePrice, parseText)
    ensures (raw.originalPrice.None? || raw.originalPrice.value == 0.0) && !Truthy(raw.basePrice) ==> r.None?
  {
    if raw.originalPrice.Some? && raw.originalPrice.value != 0.0 then raw.originalPrice
    else if Truthy(raw.basePrice) then ParseFloat(raw.basePrice, parseText)
    else None
  }

  /** `category || 'Uncategorized'`: never empty. */
  function ChooseCategory(category: Option<string>): (c: string)
    ensures c != ""
    ensures category.Some? && category.value != "" ==> c == category.value
    ensures category.None? || category.value == "" ==> c == DefaultCategory
  {
    OrText(category, Some(DefaultCategory)).value
  }

  /** `rating || 4.5`: never zero. */
  function ChooseRating(rating: Option<real>): (r: real)
    ensures r != 0.0
    ensures rating.Some? && rating.value != 0.0 ==> r == rating.value
    ensures rating.None? || rating.value == 0.0 ==> r == DefaultRating
  {
    if rating.Some? && rating.value != 0.0 then rating.value else DefaultRating
  }

  /** `reviewCount || 0`: the count when present (a present zero is still zero). */
  function ChooseReviewCount(count: Option<int>): (n: int)
    ensures n == count.GetOr(0)
  {
    if count.Some? && count.value != 0 then count.value else 0
  }

  /** `featured !== undefined ? featured : (status === 'approved' && is_active)`. Only a
      missing flag falls back to the status rule; a `null` flag is kept, and since it is
      falsy wherever the flag is read, the product is not featured. */
  function ChooseFeatured(raw: RawProduct): (f: bool)
    ensures raw.featured.Defined? ==> f == raw.featured.value
    ensures raw.featured.Null? ==> !f
    ensures raw.featured.Undefined? ==> (f <==> raw.status == Some("approved") && raw.isActive)
  {
    match raw.featured
    case Defined(b) => b
    case Null => false
    case Undefined => raw.status == Some("approved") && raw.isActive
  }

  /** `transformProduct`: the client product built from the backend record. */
  function Transform(raw: RawProduct, parseText: string -> Option<real>,
                     parseJson: string -> Option<seq<string>>): (p: Product)
    ensures p.images == NormaliseMedia(raw.images, parseJson)
    ensures p.videos == NormaliseMedia(raw.videos, parseJson)
    ensures p.thumbnail == (if |p.images| > 0 then p.images[0] else "")
    ensures p.price == ChoosePrice(raw, parseText)
    ensures p.originalPrice == ChooseOriginalPrice(raw, parseText)
    ensures p.discount == CalculateDiscount(ParseFloat(raw.basePrice, parseText), ParseFloat(raw.currentPrice, parseText))
    ensures p.category == ChooseCategory(raw.category)
    ensures p.rating == ChooseRating(raw.rating)
    ensures p.reviewCount == raw.reviewCount.GetOr(0)
    ensures p.shipping == raw.shipping.GetOr(DefaultShipping)
    ensures raw.description.Some? ==> p.description == raw.description.value
    ensures raw.description.None? ==> p.description == ""
    ensures p.featured == ChooseFeatured(raw)
    ensures p.subcategory.None?
    ensures p.id == raw.id && p.name == raw.name
    ensures raw.ownerName.Some? && raw.ownerName.value != "" ==> p.ownerName == raw.ownerName
    ensures !(raw.ownerName.Some? && raw.ownerName.value != "") ==>
      p.ownerName == (if raw.user.Some? then raw.user.value.name else None)
    ensures raw.ownerRole.Some? && raw.ownerRole.value != "" ==> p.ownerRole == raw.ownerRole
    ensures !(raw.ownerRole.Some? && raw.ownerRole.value != "") ==>
      p.ownerRole == (if raw.user.Some? then raw.user.value.role else None)
  {
    var images := NormaliseMedia(raw.images, parseJson);
    var userName := if raw.user.Some? then raw.user.value.name else None;
    var userRole := if raw.user.Some? then raw.user.value.role else None;
    Product(
      id := raw.id,
      name := raw.name,
      description := OrText(raw.description, Some("")).value,
      price := ChoosePrice(raw, parseText),
      originalPrice := ChooseOriginalPrice(raw, parseText),
      discount := CalculateDiscount(ParseFloat(raw.basePrice, parseText), ParseFloat(raw.currentPrice, parseText)),
      images := images,
      thumbnail := Thumbnail(images),
      category := ChooseCategory(raw.category),
      subcategory := None,
      rating := ChooseRating(raw.rating),
      reviewCount := ChooseReviewCount(raw.reviewCount),
      featured := ChooseFeatured(raw),
      shipping := if raw.shipping.Some? then raw.shipping.value else DefaultShipping,
      videos := NormaliseMedia(raw.videos, parseJson),
      ownerName := OrText(raw.ownerName, userName),
      ownerRole := OrText(raw.ownerRole, userRole))
  }
}

=== FILE: app_store.dfy ===
/** The catalog part of the global store (store/useAppStore.ts): the products, the
    filtered view, the browsing cursor, the breadcrumb through the filter tree and the
    three membership lists. Every action is a pure function from state to state. */
module AppStore {
  import opened Wrappers
  import opened ProductData
  import opened Seqs
  import FC = FilterConfig
  import Strings

  datatype State = State(
    products: seq<Product>,
    filteredProducts: seq<Product>,
    currentProductIndex: int,
    selectedFilters: seq<string>,
    currentFilterSet: seq<FC.Filter>,
    followedUsers: seq<string>,
    likedReviews: seq<string>,
    savedProducts: seq<string>,
    isLoading: bool,
    error: Option<string>)

  /** The store's initial catalog state. */
  const Initial: State :=
    State([], [], 0, [], FC.Tree["root"], [], [], [], true, None)

  const LoadError: string := "Failed to load products. Please check your connection."

  // ---------------------------------------------------------------------------
  // Matching

  /** `a.toLowerCase() === b.toLowerCase()`. */
  predicate SameIgnoringCase(a: string, b: string) {
    Strings.ToLower(a) == Strings.ToLower(b)
  }

  /** The last breadcrumb entry; `None` plays JavaScript's `undefined` for an empty one. */
  function LastFilter(selected: seq<string>): (last: Option<string>)
    ensures |selected| == 0 <==> last.None?
    ensures |selected| > 0 ==> last.value == selected[|selected| - 1]
  {
    if |selected| == 0 then None else Some(selected[|selected| - 1])
  }

  /** The test a product must pass for `selectFilter(id)` to keep it: its category for
      a parent id; the last breadcrumb entry as category and `id` as subcategory
      otherwise. An `undefined` parent never equals a product's category. */
  predicate Matches(selected: seq<string>, id: string, p: Product)
    ensures FC.HasSubFilters(id) ==> (Matches(selected, id, p) <==> SameIgnoringCase(p.category, id))
    ensures !FC.HasSubFilters(id) && Matches(selected, id, p) ==>
      && |selected| > 0
      && SameIgnoringCase(p.category, selected[|selected| - 1])
      && p.subcategory.Some?
  {
    if FC.HasSubFilters(id) then SameIgnoringCase(p.category, id)
    else
      && LastFilter(selected).Some?
      && SameIgnoringCase(p.category, LastFilter(selected).value)
      && p.subcategory.Some?
      && SameIgnoringCase(p.subcategory.value, id)
  }

  /** `Matches` as the callback handed to `filter`. */
  function MatchTest(selected: seq<string>, id: string): Product -> bool {
    p => Matches(selected, id, p)
  }

  /** `filtered.length > 0 ? filtered : state.products`. */
  function NonEmptyOr(filtered: seq<Product>, all: seq<Product>): seq<Product> {
    if |filtered| > 0 then filtered else all
  }

  /** The filter set shown at a breadcrumb: the root's entries at the top, otherwise
      those under the last entry. */
  function FiltersAt(selected: seq<string>): seq<FC.Filter> {
    if |selected| == 0 then FC.Tree["root"]
    else FC.GetFiltersForCategory(selected[|selected| - 1])
  }

  /** What every reachable state satisfies: the breadcrumb is a path of parent ids,
      the filter set is the one under its end, the displayed list is the full list or
      a non-empty ordered selection from it, and the cursor is not negative. */
  ghost predicate Valid(s: State) {
    && (forall i :: 0 <= i < |s.selectedFilters| ==> FC.HasSubFilters(s.selectedFilters[i]))
    && s.currentFilterSet == FiltersAt(s.selectedFilters)
    && (s.filteredProducts == s.products
        || (|s.filteredProducts| > 0 && Subsequence(s.filteredProducts, s.products)))
    && s.currentProductIndex >= 0
  }

  lemma InitialValid()
    ensures Valid(Initial)
  {
  }

  /** The displayed list is never empty while the catalog is not. */
  lemma NeverEmpty(s: State)
    requires Valid(s) && |s.products| > 0
    ensures |s.filteredProducts| > 0
  {
  }

  // ---------------------------------------------------------------------------
  // Filter navigation

  /** The products of the enclosing category and `id`, in catalog order: each match
      as often as the catalog holds it, nothing else. Empty exactly when nothing
      matches. */
  function Filtered(s: State, id: string): (f: seq<Product>)
    ensures forall p :: p in f <==> p in s.products && Matches(s.selectedFilters, id, p)
    ensures forall p ::
      multiset(f)[p] == if Matches(s.selectedFilters, id, p) then multiset(s.products)[p] else 0
    ensures Subsequence(f, s.products)
    ensures |f| > 0 <==> exists p :: p in s.products && Matches(s.selectedFilters, id, p)
  {
    var filtered := Keep(s.products, MatchTest(s.selectedFilters, id));
    KeepSubsequence(s.products, MatchTest(s.selectedFilters, id));
    KeepMembers(s.products, MatchTest(s.selectedFilters, id));
    KeepCounts(s.products, MatchTest(s.selectedFilters, id));
    assert |filtered| > 0 ==> filtered[0] in filtered;
    filtered
  }

  /** `selectFilter(id)`. A parent id extends the breadcrumb and shows the products of
      that category; any other id keeps the breadcrumb and shows the products of the
      enclosing category and that subcategory. An empty selection falls back to the
      whole catalog, and the cursor returns to the first product. */
  function SelectFilter(s: State, id: string): (r: State)
    ensures FC.HasSubFilters(id) ==>
      r.selectedFilters == s.selectedFilters + [id] && r.currentFilterSet == FC.Tree[id]
    ensures !FC.HasSubFilters(id) ==>
      r.selectedFilters == s.selectedFilters && r.currentFilterSet == s.currentFilterSet
    ensures (exists p :: p in s.products && Matches(s.selectedFilters, id, p)) ==>
      && (forall p :: p in r.filteredProducts <==> p in s.products && Matches(s.selectedFilters, id, p))
      && (forall p :: multiset(r.filteredProducts)[p] ==
            if Matches(s.selectedFilters, id, p) then multiset(s.products)[p] else 0)
      && Subsequence(r.filteredProducts, s.products)
    ensures !(exists p :: p in s.products && Matches(s.selectedFilters, id, p)) ==>
      r.filteredProducts == s.products
    ensures r.currentProductIndex == 0
    ensures r.(selectedFilters := s.selectedFilters, currentFilterSet := s.currentFilterSet,
               filteredProducts := s.filteredProducts, currentProductIndex := s.currentProductIndex) == s
    ensures Valid(s) ==> Valid(r)
  {
    var shown := NonEmptyOr(Filtered(s, id), s.products);
    if FC.HasSubFilters(id) then
      s.(selectedFilters := s.selectedFilters + [id],
         currentFilterSet := FC.Tree[id],
         filteredProducts := shown,
         currentProductIndex := 0)
    else
      s.(filteredProducts := shown,
         currentProductIndex := 0)
  }

  /** `goBackFilter()`: nothing happens at the root; otherwise the last breadcrumb entry
      is dropped, the filter set becomes the one under the new last entry (the root's
      when there is none or it is not a key), and the whole catalog is shown again. */
  function GoBackFilter(s: State): (r: State)
    ensures |s.selectedFilters| == 0 ==> r == s
    ensures |s.selectedFilters| > 0 ==>
      && r.selectedFilters + [s.selectedFilters[|s.selectedFilters| - 1]] == s.selectedFilters
      && r.filteredProducts == s.products
      && r.currentProductIndex == 0
      && (|r.selectedFilters| == 0 ==> r.currentFilterSet == FC.Tree["root"])
      && (|r.selectedFilters| > 0 && r.selectedFilters[|r.selectedFilters| - 1] in FC.Tree ==>
            r.currentFilterSet == FC.Tree[r.selectedFilters[|r.selectedFilters| - 1]])
      && (|r.selectedFilters| > 0 && r.selectedFilters[|r.selectedFilters| - 1] !in FC.Tree ==>
            r.currentFilterSet == FC.Tree["root"])
      && r.(selectedFilters := s.selectedFilters, currentFilterSet := s.currentFilterSet,
            filteredProducts := s.filteredProducts, currentProductIndex := s.currentProductIndex) == s
    ensures Valid(s) ==> Valid(r)
  {
    if |s.selectedFilters| == 0 then s
    else
      var selected := s.selectedFilters[..|s.selectedFilters| - 1];
      var last := if |selected| > 0 && selected[|selected| - 1] != "" then selected[|selected| - 1] else "root";
      var filterSet := if last in FC.Tree then FC.Tree[last] else FC.Tree["root"];
      assert selected + [s.selectedFilters[|s.selectedFilters| - 1]] == s.selectedFilters;
      s.(selectedFilters := selected,
         currentFilterSet := filterSet,
         filteredProducts := s.products,
         currentProductIndex := 0)
  }

  /** `resetFilters()`: back to the root with the whole catalog shown; from any state
      this lands in a valid one. */
  function ResetFilters(s: State): (r: State)
    ensures Valid(r)
    ensures |r.selectedFilters| == 0
    ensures r.currentFilterSet == FC.Tree["root"]
    ensures r.filteredProducts == r.products == s.products
    ensures r.currentProductIndex == 0
    ensures r.(selectedFilters := s.selectedFilters, currentFilterSet := s.currentFilterSet,
               filteredProducts := s.filteredProducts, currentProductIndex := s.currentProductIndex) == s
  {
    s.(selectedFilters := [],
       currentFilterSet := FC.Tree["root"],
       filteredProducts := s.products,
       currentProductIndex := 0)
  }

  /** Resetting twice is resetting once. */
  lemma ResetIdempotent(s: State)
    ensures ResetFilters(ResetFilters(s)) == ResetFilters(s)
  {
  }

  // ---------------------------------------------------------------------------
  // Cursor

  /** `nextProduct()`: one step forward unless already on the last displayed product. */
  function NextProduct(s: State): (r: State)
    ensures r.currentProductIndex == s.currentProductIndex + 1 <==>
              s.currentProductIndex < |s.filteredProducts| - 1
    ensures r.currentProductIndex != s.currentProductIndex + 1 ==>
              r.currentProductIndex == s.currentProductIndex
    ensures r.currentProductIndex <= if s.currentProductIndex < |s.filteredProducts| - 1
                                      then |s.filteredProducts| - 1 else s.currentProductIndex
    ensures r.(currentProductIndex := s.currentProductIndex) == s
    ensures Valid(s) ==> Valid(r)
  {
    s.(currentProductIndex :=
         if s.currentProductIndex < |s.filteredProducts| - 1 then s.currentProductIndex + 1
         else s.currentProductIndex)
  }

  /** `previousProduct()`: one step back unless already at the start; no wrap-around. */
  function PreviousProduct(s: State): (r: State)
    ensures r.currentProductIndex == s.currentProductIndex - 1 <==> s.currentProductIndex > 0
    ensures r.currentProductIndex != s.currentProductIndex - 1 ==>
              r.currentProductIndex == s.currentProductIndex
    ensures s.currentProductIndex >= 0 ==> r.currentProductIndex >= 0
    ensures r.(currentProductIndex := s.currentProductIndex) == s
    ensures Valid(s) ==> Valid(r)
  {
    s.(currentProductIndex :=
         if s.currentProductIndex > 0 then s.currentProductIndex - 1 else s.currentProductIndex)
  }

  // ---------------------------------------------------------------------------
  // Membership toggles

  /** `list.includes(id) ? list.filter(x => x !== id) : [...list, id]`. */
  function Toggle(list: seq<string>, id: string): (r: seq<string>)
    ensures id in list ==> id !in r && forall x :: x in r <==> x in list && x != id
    ensures id !in list ==> r == list + [id]
  {
    if id in list then
      KeepMembers(list, x => x != id);
      Keep(list, x => x != id)
    else list + [id]
  }

  /** Toggling an absent id twice gives back the original list. */
  lemma ToggleTwiceRestores(list: seq<string>, id: string)
    requires id !in list
    ensures Toggle(Toggle(list, id), id) == list
  {
    var keep := (x: string) => x != id;
    KeepAppend(list, [id], keep);
    KeepAll(list, keep);
    assert Keep([id], keep) == [];
  }

  /** A list without duplicates keeps none after a toggle. */
  lemma ToggleKeepsNoDuplicates(list: seq<string>, id: string)
    requires NoDuplicates(list)
    ensures NoDuplicates(Toggle(list, id))
  {
    if id in list {
      KeepNoDuplicates(list, x => x != id);
    }
  }

  function ToggleFollow(s: State, userId: string): (r: State)
    ensures userId in r.followedUsers <==> userId !in s.followedUsers
    ensures r.followedUsers == Toggle(s.followedUsers, userId)
    ensures r.(followedUsers := s.followedUsers) == s
  {
    s.(followedUsers := Toggle(s.followedUsers, userId))
  }

  function ToggleLike(s: State, reviewId: string): (r: State)
    ensures reviewId in r.likedReviews <==> reviewId !in s.likedReviews
    ensures r.likedReviews == Toggle(s.likedReviews, reviewId)
    ensures r.(likedReviews := s.likedReviews) == s
  {
    s.(likedReviews := Toggle(s.likedReviews, reviewId))
  }

  function ToggleSave(s: State, productId: string): (r: State)
    ensures productId in r.savedProducts <==> productId !in s.savedProducts
    ensures r.savedProducts == Toggle(s.savedProducts, productId)
    ensures r.(savedProducts := s.savedProducts) == s
  {
    s.(savedProducts := Toggle(s.savedProducts, productId))
  }

  // ---------------------------------------------------------------------------
  // Loading the catalog

  /** The four categories handed out in turn. */
  const Categories: seq<string> := ["male", "female", "graduation", "wedding"]

  /** The six subcategories handed out in turn within each category. */
  const Subcategories: map<string, seq<string>> := map[
    "male" := ["rings", "necklaces", "bracelets", "earrings", "watches", "chains"],
    "female" := ["rings", "necklaces", "bracelets", "earrings", "anklets", "pendants"],
    "graduation" := ["rings", "medals", "pins", "cufflinks", "pendants", "sets"],
    "wedding" := ["rings", "sets", "tiaras", "bracelets", "earrings", "necklaces"]
  ]

  const PlaceholderVideo: string :=
    "https://commondatastorage.googleapis.com/gtv-videos-bucket/sample/ForBiggerBlazes.mp4"

  /** The enrichment of the product at position `idx` of the fetched list. */
  function EnrichOne(p: Product, idx: nat): Product {
    var category := Categories[idx % |Categories|];
    var subs := Subcategories[category];
    p.(category := category,
       subcategory := Some(subs[idx % |subs|]),
       images := Take(p.images, 3),
       videos := if |p.videos| > 0 then p.videos else [PlaceholderVideo])
  }

  /** The map applied by `loadProducts` to the fetched list. */
  function Enrich(ps: seq<Product>): (r: seq<Product>)
    ensures |r| == |ps|
    ensures forall i :: 0 <= i < |ps| ==>
      && r[i].category == Categories[i % 4]
      && r[i].subcategory == Some(Subcategories[r[i].category][i % 6])
      && |r[i].images| <= 3 && |r[i].images| <= |ps[i].images|
      && r[i].images == ps[i].images[..|r[i].images|]
      && (|ps[i].images| <= 3 ==> r[i].images == ps[i].images)
      && (|ps[i].images| >= 3 ==> |r[i].images| == 3)
      && (|ps[i].videos| > 0 ==> r[i].videos == ps[i].videos)
      && (|ps[i].videos| == 0 ==> r[i].videos == [PlaceholderVideo])
      && r[i].(category := ps[i].category, subcategory := ps[i].subcategory,
               images := ps[i].images, videos := ps[i].videos) == ps[i]
  {
    seq(|ps|, i requires 0 <= i < |ps| => EnrichOne(ps[i], i))
  }

  /** Enriching an enriched list changes nothing: the labels depend only on positions,
      the images are already short and the video list is already non-empty. */
  lemma EnrichIdempotent(ps: seq<Product>)
    ensures Enrich(Enrich(ps)) == Enrich(ps)
  {
    var e := Enrich(ps);
    forall i | 0 <= i < |ps| ensures Enrich(e)[i] == e[i] {
      assert Take(e[i].images, 3) == e[i].images;
    }
  }

  /** The store's subcategory lists are the filter tree's children, in the same order. */
  lemma SubcategoriesMatchTree()
    ensures forall c :: c in Categories <==> c in Subcategories
    ensures forall c :: c in Categories ==> c in FC.Tree && FC.Ids(FC.Tree[c]) == Subcategories[c]
  {
    assert FC.Ids(FC.Male) == Subcategories["male"];
    assert FC.Ids(FC.Female) == Subcategories["female"];
    assert FC.Ids(FC.Graduation) == Subcategories["graduation"];
    assert FC.Ids(FC.Wedding) == Subcategories["wedding"];
  }

  /** Every enriched product names, as its subcategory, a child of its category. */
  lemma EnrichedPairsAreInTree(ps: seq<Product>, i: int)
    requires 0 <= i < |ps|
    ensures Enrich(ps)[i].category in FC.Tree
    ensures Enrich(ps)[i].subcategory.value in FC.Ids(FC.Tree[Enrich(ps)[i].category])
  {
    SubcategoriesMatchTree();
    var c := Enrich(ps)[i].category;
    assert c in Categories;
    assert Subcategories[c][i % 6] in Subcategories[c];
  }

  /** `loadProducts()` once the fetch has settled: on success the enriched list becomes
      both the catalog and the displayed list (the cursor and breadcrumb are left as
      they were); on failure only the error is set. */
  function LoadProducts(s: State, fetched: Result<seq<Product>, string>): (r: State)
    ensures !r.isLoading
    ensures fetched.Success? ==>
      && r.products == Enrich(fetched.value)
      && r.filteredProducts == r.products
      && r.error.None?
    ensures fetched.Failure? ==>
      && r.products == s.products
      && r.filteredProducts == s.filteredProducts
      && r.error == Some(LoadError)
    ensures r.currentProductIndex == s.currentProductIndex
    ensures r.selectedFilters == s.selectedFilters && r.currentFilterSet == s.currentFilterSet
    ensures r.(products := s.products, filteredProducts := s.filteredProducts,
               isLoading := s.isLoading, error := s.error) == s
    ensures Valid(s) ==> Valid(r)
  {
    match fetched
    case Success(ps) =>
      var enriched := Enrich(ps);
      s.(products := enriched, filteredProducts := enriched, isLoading := false, error := None)
    case Failure(_) =>
      s.(isLoading := false, error := Some(LoadError))
  }

  // ---------------------------------------------------------------------------
  // Sequences of selections

  /** `selectFilter` applied to each id in turn. */
  function SelectAll(s: State, ids: seq<string>): (r: State)
    ensures r.products == s.products
    ensures |s.selectedFilters| <= |r.selectedFilters|
    ensures r.selectedFilters[..|s.selectedFilters|] == s.selectedFilters
    ensures Valid(s) ==> Valid(r)
    decreases |ids|
  {
    if |ids| == 0 then s
    else SelectFilter(SelectAll(s, ids[..|ids| - 1]), ids[|ids| - 1])
  }

  /** A subcategory chosen at the root has no enclosing category and cannot match, so
      the whole catalog is shown. */
  lemma LeafAtRootShowsAll(s: State, id: string)
    requires |s.selectedFilters| == 0 && !FC.HasSubFilters(id)
    ensures SelectFilter(s, id).filteredProducts == s.products
    ensures SelectFilter(s, id).selectedFilters == []
  {
  }

  /** After any non-empty run of selections, going back once shows the whole catalog,
      however deep the path was. */
  lemma {:induction false} GoBackRestoresCatalog(s: State, ids: seq<string>)
    requires |ids| > 0
    ensures GoBackFilter(SelectAll(s, ids)).filteredProducts == s.products
  {
    var t := SelectAll(s, ids[..|ids| - 1]);
    var u := SelectFilter(t, ids[|ids| - 1]);
    assert SelectAll(s, ids) == u;
    if |u.selectedFilters| == 0 {
      assert !FC.HasSubFilters(ids[|ids| - 1]);
      LeafAtRootShowsAll(t, ids[|ids| - 1]);
    }
  }

  /** Choosing a category and then one of its children leaves the breadcrumb ending at
      the category: a child never deepens it. */
  lemma BreadcrumbAfterChild(s: State, category: string, i: int)
    requires category in FC.CategoryKeys && 0 <= i < |FC.Tree[category]|
    ensures var t := SelectFilter(SelectFilter(s, category), FC.Tree[category][i].id);
      && t.selectedFilters == s.selectedFilters + [category]
      && t.currentFilterSet == FC.Tree[category]
  {
    FC.TreeKeys();
    FC.LeavesAreNotKeys();
  }

  /** `'root'` is itself a key, so selecting it pushes it like a category; selecting
      the same category twice pushes it twice. */
  lemma RootAndRepeatedSelections(s: State)
    ensures SelectFilter(s, "root").selectedFilters == s.selectedFilters + ["root"]
    ensures SelectFilter(s, "root").currentFilterSet == FC.Root
    ensures SelectFilter(SelectFilter(s, "male"), "male").selectedFilters == s.selectedFilters + ["male", "male"]
  {
    FC.TreeKeys();
    assert FC.HasSubFilters("root") && FC.HasSubFilters("male");
    var t := SelectFilter(s, "male");
    assert t.selectedFilters == s.selectedFilters + ["male"];
    assert SelectFilter(t, "male").selectedFilters == t.selectedFilters + ["male"];
  }

  /** Filtering `e[k..]` step by step, for the scenario below. */
  lemma KeepSuffixes(e: seq<Product>, keep: Product -> bool)
    ensures forall k :: 0 <= k < |e| ==>
      Keep(e[k..], keep) == (if keep(e[k]) then [e[k]] else []) + Keep(e[k + 1..], keep)
  {
    forall k | 0 <= k < |e|
      ensures Keep(e[k..], keep) == (if keep(e[k]) then [e[k]] else []) + Keep(e[k + 1..], keep)
    {
      KeepStep(e[k..], keep);
      assert e[k..][1..] == e[k + 1..];
    }
  }

  /** Only `male` itself equals `male` ignoring case among the four categories. */
  lemma OnlyMaleIsMale(c: string)
    requires c in Categories
    ensures SameIgnoringCase(c, "male") <==> c == "male"
  {
    if c != "male" {
      assert |Strings.ToLower(c)| != |Strings.ToLower("male")|;
    }
  }

  /** Of ten enriched products, positions 0, 4 and 8 are in category `male`. */
  lemma MaleOfTen(ps: seq<Product>)
    requires |ps| == 10
    ensures Keep(Enrich(ps), MatchTest([], "male")) == [Enrich(ps)[0], Enrich(ps)[4], Enrich(ps)[8]]
  {
    FC.TreeKeys();
    var e := Enrich(ps);
    var keep := MatchTest([], "male");
    assert e[0].category == "male";
    assert e[1].category == "female";
    assert e[2].category == "graduation";
    assert e[3].category == "wedding";
    assert e[4].category == "male";
    assert e[5].category == "female";
    assert e[6].category == "graduation";
    assert e[7].category == "wedding";
    assert e[8].category == "male";
    assert e[9].category == "female";
    forall k | 0 <= k < 10 ensures keep(e[k]) <==> e[k].category == "male" {
      OnlyMaleIsMale(e[k].category);
    }
    KeepSuffixes(e, keep);
    assert e[10..] == [];
    assert Keep(e[8..], keep) == [e[8]];
    assert Keep(e[4..], keep) == [e[4], e[8]];
    assert Keep(e[0..], keep) == [e[0], e[4], e[8]];
    assert e[0..] == e;
  }

  /** What `selectFilter` displays: the matching products, or the whole catalog when
      none match. */
  lemma SelectShows(s: State, id: string)
    ensures SelectFilter(s, id).filteredProducts ==
      NonEmptyOr(Keep(s.products, MatchTest(s.selectedFilters, id)), s.products)
  {
  }

  /** Ten products loaded at the root, then `male`: positions 0, 4 and 8 are shown. */
  lemma ScenarioMale(s: State, ps: seq<Product>)
    requires |ps| == 10 && |s.selectedFilters| == 0
    ensures var male := SelectFilter(LoadProducts(s, Success(ps)), "male");
      && male.filteredProducts == [Enrich(ps)[0], Enrich(ps)[4], Enrich(ps)[8]]
      && male.selectedFilters == ["male"]
      && male.products == Enrich(ps)
  {
    FC.TreeKeys();
    var loaded := LoadProducts(s, Success(ps));
    MaleOfTen(ps);
    SelectShows(loaded, "male");
  }

  /** Then `rings`: only position 0 is shown, and the breadcrumb stays at `male`. */
  lemma ScenarioRings(m: State, ps: seq<Product>)
    requires |ps| == 10
    requires m.filteredProducts == [Enrich(ps)[0], Enrich(ps)[4], Enrich(ps)[8]]
    requires m.selectedFilters == ["male"] && m.products == Enrich(ps)
    ensures SelectFilter(m, "rings").filteredProducts == [Enrich(ps)[0]]
    ensures SelectFilter(m, "rings").selectedFilters == ["male"]
  {
    FC.TreeKeys();
    FC.LeavesAreNotKeys();
    assert !FC.HasSubFilters("rings");
    var e := Enrich(ps);
    var keep := MatchTest(["male"], "rings");
    assert keep(e[0]) by { assert e[0].subcategory == Some("rings"); }
    forall k | 1 <= k < |e| ensures !keep(e[k]) {
      OnlyMaleIsMale(e[k].category);
      if k == 4 {
        assert e[4].subcategory == Some("watches");
      } else if k == 8 {
        assert e[8].subcategory == Some("bracelets");
      } else {
        assert e[k].category != "male";
      }
    }
    KeepFirstOnly(e, keep);
    SelectShows(m, "rings");
  }
}

=== FILE: avatar.dfy ===
/** The avatar's fallback text (components/ui/Avatar.tsx): the first letters of the
    space-separated words, upper-cased, at most two of them. */
module Avatar {
  import opened Wrappers
  import opened Strings
  import opened Seqs

  /** `parts.map(n => n[0]).join('')`: a missing first character joins as nothing. */
  function WordInitials(parts: seq<string>): (r: string)
    ensures |r| <= |parts|
    ensures |parts| > 0 && |parts[0]| > 0 ==> |r| > 0 && r[0] == parts[0][0]
    decreases |parts|
  {
    if |parts| == 0 then ""
    else (if |parts[0]| > 0 then [parts[0][0]] else "") + WordInitials(parts[1..])
  }

  /** The number of non-empty parts. */
  function Words(parts: seq<string>): nat
    decreases |parts|
  {
    if |parts| == 0 then 0 else (if parts[0] != "" then 1 else 0) + Words(parts[1..])
  }

  /** One letter per non-empty word, none for an empty one. */
  lemma {:induction false} WordInitialsLength(parts: seq<string>)
    ensures |WordInitials(parts)| == Words(parts)
    decreases |parts|
  {
    if |parts| > 0 {
      WordInitialsLength(parts[1..]);
    }
  }

  /** Word initials distribute over concatenation of the parts. */
  lemma {:induction false} WordInitialsAppend(a: seq<string>, b: seq<string>)
    ensures WordInitials(a + b) == WordInitials(a) + WordInitials(b)
    decreases |a|
  {
    if |a| == 0 {
      assert a + b == b;
    } else {
      assert (a + b)[0] == a[0];
      assert (a + b)[1..] == a[1..] + b;
      WordInitialsAppend(a[1..], b);
    }
  }

  /** An empty word, from a doubled, leading or trailing space, adds nothing. */
  lemma EmptyWordIgnored(a: seq<string>, b: seq<string>)
    ensures WordInitials(a + [""] + b) == WordInitials(a + b)
  {
    WordInitialsAppend(a + [""], b);
    WordInitialsAppend(a, [""]);
    WordInitialsAppend(a, b);
  }

  /** `getInitials(name)`. */
  function GetInitials(name: string): (r: string)
    ensures |r| <= 2
    ensures NoLowerCase(r)
  {
    Take(ToUpper(WordInitials(Split(name, ' '))), 2)
  }

  /** The component's `name` defaults to `'User'` only when no name is given at all;
      an explicit empty name is kept. */
  function AvatarInitials(name: Option<string>): (r: string)
    ensures |r| <= 2
    ensures name.None? ==> r == "U"
    ensures name.Some? ==> r == GetInitials(name.value)
  {
    OneWordOneLetter("User");
    GetInitials(name.GetOr("User"))
  }

  /** A single word yields a single letter (OwnerInfo would show two). */
  lemma OneWordOneLetter(w: string)
    requires w != "" && ' ' !in w
    ensures GetInitials(w) == [UpperChar(w[0])]
  {
    SplitNoSeparator(w, ' ');
  }

  /** Two words yield the first letters of both, upper-cased. */
  lemma TwoWordsTwoLetters(a: string, b: string)
    requires a != "" && b != "" && ' ' !in a && ' ' !in b
    ensures GetInitials(a + " " + b) == [UpperChar(a[0]), UpperChar(b[0])]
  {
    SplitNoSeparator(b, ' ');
    SplitAtFirstSeparator(a, ' ', b);
    assert a + [' '] + b == a + " " + b;
  }

  /** The parts of `a b rest` are `a`, `b` and then those of `rest`. */
  lemma SplitTwoWordsThenRest(a: string, b: string, rest: string)
    requires ' ' !in a && ' ' !in b
    ensures Split(a + " " + b + " " + rest, ' ') == [a, b] + Split(rest, ' ')
  {
    var tail := b + [' '] + rest;
    SplitAtFirstSeparator(b, ' ', rest);
    SplitAtFirstSeparator(a, ' ', tail);
    assert a + [' '] + tail == a + " " + b + " " + rest;
    assert [a] + ([b] + Split(rest, ' ')) == [a, b] + Split(rest, ' ');
  }

  /** Three or more words still show only the first two letters. */
  lemma ManyWordsTruncated(a: string, b: string, rest: string)
    requires a != "" && b != "" && ' ' !in a && ' ' !in b
    ensures GetInitials(a + " " + b + " " + rest) == [UpperChar(a[0]), UpperChar(b[0])]
  {
    SplitTwoWordsThenRest(a, b, rest);
    WordInitialsAppend([a, b], Split(rest, ' '));
    assert [a, b][1..] == [b] && [b][1..] == [];
    assert WordInitials([a, b]) == [a[0], b[0]];
  }

  /** An explicit empty name has no letters at all. */
  lemma EmptyNameNoLetters()
    ensures AvatarInitials(Some("")) == ""
  {
  }
}

=== FILE: detail_view.dfy ===
/** The detail panel (components/home/DetailView.tsx): the current user's initials, and
    the two message updates it hands back to its parent, after posting a comment and
    after toggling a reaction. The server replies are parameters. */
module DetailView {
  import opened Wrappers
  import opened Strings
  import opened Seqs
  import opened ProductData
  import opened Api
  import OwnerInfo
  import Avatar

  /** The item on show: a product or a forum message. */
  datatype Item = ProductItem(product: Product) | MessageItem(message: Message)

  /** `currentUser?.name`, with `None` for a missing user. */
  function UserName(user: Option<User>): (name: Option<string>)
    ensures user.None? <==> name.None?
    ensures user.Some? ==> name == Some(user.value.name)
  {
    match user
    case Some(u) => Some(u.name)
    case None => None
  }

  /** `getUserInitials` as written: the owner badge's rule, including its `undefined`
      text for an empty part of the name. */
  function UserInitialsAsWritten(user: Option<User>): (r: string)
    ensures user.None? ==> r == "U"
    ensures r == OwnerInfo.InitialsAsWritten(UserName(user))
  {
    OwnerInfo.InitialsAsWritten(UserName(user))
  }

  /** A signed-in user whose name has a doubled space sees `undefined` in the badge. */
  lemma UserInitialsShowUndefined(u: User, first: string, last: string)
    requires u.name == first + "  " + last
    requires first != "" && ' ' !in first && ' ' !in last
    ensures UserInitialsAsWritten(Some(u)) == [UpperChar(first[0])] + "UNDEFINED"
  {
    OwnerInfo.DoubleSpaceShowsUndefined(first, last);
  }

  /** The corrected initials: one or two upper-case characters, `'U'` with no user. */
  function UserInitials(user: Option<User>): (r: string)
    ensures 1 <= |r| <= 2
    ensures NoLowerCase(r)
    ensures user.None? || user.value.name == "" ==> r == "U"
  {
    OwnerInfo.Initials(UserName(user))
  }

  /** With the correction, the same user sees the first letters of both words. */
  lemma UserInitialsSkipEmptyPart(u: User, first: string, last: string)
    requires u.name == first + "  " + last
    requires first != "" && last != "" && ' ' !in first && ' ' !in last
    ensures UserInitials(Some(u)) == [UpperChar(first[0]), UpperChar(last[0])]
  {
    OwnerInfo.DoubleSpaceSkipped(first, last);
  }

  /** The comment author's avatar: every word's first letter, upper-cased and not
      truncated, or `'U'` when there is none. */
  function CommentInitials(ownerName: string): (r: string)
    ensures |r| >= 1
    ensures NoLowerCase(r)
    ensures |r| <= |Split(ownerName, ' ')|
    ensures Avatar.Words(Split(ownerName, ' ')) == 0 ==> r == "U"
    ensures Avatar.Words(Split(ownerName, ' ')) > 0 ==>
      |r| == Avatar.Words(Split(ownerName, ' ')) && Take(r, 2) == Avatar.GetInitials(ownerName)
  {
    Avatar.WordInitialsLength(Split(ownerName, ' '));
    var letters := ToUpper(Avatar.WordInitials(Split(ownerName, ' ')));
    if letters != "" then letters else "U"
  }

  /** Unlike the avatar, a comment author with three words shows three letters. */
  lemma CommentInitialsNotTruncated(a: string, b: string, c: string)
    requires a != "" && b != "" && c != ""
    requires ' ' !in a && ' ' !in b && ' ' !in c
    ensures CommentInitials(a + " " + b + " " + c) == [UpperChar(a[0]), UpperChar(b[0]), UpperChar(c[0])]
  {
    SplitNoSeparator(c, ' ');
    SplitAtFirstSeparator(b, ' ', c);
    SplitAtFirstSeparator(a, ' ', b + [' '] + c);
    assert a + [' '] + (b + [' '] + c) == a + " " + b + " " + c;
    assert Split(a + " " + b + " " + c, ' ') == [a, b, c];
    assert [a, b, c][1..] == [b, c] && [b, c][1..] == [c] && [c][1..] == [];
    assert Avatar.WordInitials([c]) == [c[0]];
    assert Avatar.WordInitials([b, c]) == [b[0], c[0]];
    var w := Avatar.WordInitials([a, b, c]);
    assert w == [a[0], b[0], c[0]];
    assert ToUpper(w) == [UpperChar(a[0]), UpperChar(b[0]), UpperChar(c[0])];
  }

  // ---------------------------------------------------------------------------
  // Message updates

  /** The message with `comment` appended to its comments. */
  function AddComment(m: Message, comment: Comment): (r: Message)
    ensures |r.comments| == |m.comments| + 1
    ensures r.comments[..|m.comments|] == m.comments && r.comments[|m.comments|] == comment
    ensures r.(comments := m.comments) == m
  {
    m.(comments := m.comments + [comment])
  }

  /** `{ ...message, ...result }`: the three reaction lists are replaced. */
  function ApplyReactions(m: Message, x: Reactions): (r: Message)
    ensures r.favorite == x.favorite && r.good == x.good && r.bad == x.bad
    ensures r.(favorite := m.favorite, good := m.good, bad := m.bad) == m
  {
    m.(favorite := x.favorite, good := x.good, bad := x.bad)
  }

  /** Only the latest reply counts. */
  lemma ReactionsLastWins(m: Message, x: Reactions, y: Reactions)
    ensures ApplyReactions(ApplyReactions(m, x), y) == ApplyReactions(m, y)
  {
  }

  /** A comment and a reaction update touch different fields, so their order does not
      matter. */
  lemma CommentAndReactionsCommute(m: Message, c: Comment, x: Reactions)
    ensures ApplyReactions(AddComment(m, c), x) == AddComment(ApplyReactions(m, x), c)
  {
  }

  /** `authToken` is truthy. */
  predicate HasToken(token: Option<string>) {
    token.Some? && token.value != ""
  }

  /** What posting leads to: the text sent to the server (if any), the updated message
      handed to the parent (if any), and the text left in the input. */
  datatype PostOutcome = PostOutcome(sent: Option<string>, update: Option<Message>, text: string)

  /** `handlePostComment`. Nothing happens unless the trimmed text is non-empty, there
      is a token and the item is a message; then the untrimmed text is sent, and only a
      successful reply appends the new comment and clears the input. */
  function HandlePostComment(text: string, token: Option<string>, item: Option<Item>,
                             reply: Result<Comment, string>): (o: PostOutcome)
    ensures o.sent.Some? <==>
      Trim(text) != "" && HasToken(token) && item.Some? && item.value.MessageItem?
    ensures o.sent.Some? ==> o.sent.value == text
    ensures o.sent.None? ==> o.update.None? && o.text == text
    ensures o.sent.Some? && reply.Success? ==>
      o.update == Some(AddComment(item.value.message, reply.value)) && o.text == ""
    ensures o.sent.Some? && reply.Failure? ==> o.update.None? && o.text == text
  {
    if Trim(text) != "" && HasToken(token) && item.Some? && item.value.MessageItem? then
      match reply
      case Success(c) => PostOutcome(Some(text), Some(AddComment(item.value.message, c)), "")
      case Failure(_) => PostOutcome(Some(text), None, text)
    else PostOutcome(None, None, text)
  }

  /** Blank text, however long, is never posted. */
  lemma BlankNeverPosted(text: string, token: Option<string>, item: Option<Item>,
                         reply: Result<Comment, string>)
    requires AllSpace(text)
    ensures HandlePostComment(text, token, item, reply).sent.None?
    ensures HandlePostComment(text, token, item, reply).text == text
  {
  }

  /** Each successful post grows the comment count by one. */
  lemma PostAddsOneComment(text: string, token: Option<string>, m: Message, c: Comment)
    requires Trim(text) != "" && HasToken(token)
    ensures var o := HandlePostComment(text, token, Some(MessageItem(m)), Success(c));
      o.update.Some? && CommentCount(o.update.value) == CommentCount(m) + 1
  {
  }

  /** The reactions the user asked to toggle. */
  datatype Interaction = Favorite | Good | Bad

  /** What a reaction leads to: the request sent (if any) and the update handed on. */
  datatype InteractionOutcome = InteractionOutcome(sent: Option<Interaction>, update: Option<Message>)

  /** `handleInteraction(kind)`: without a token or a message nothing is sent; a
      successful reply overwrites the three lists, a failed one changes nothing. */
  function HandleInteraction(kind: Interaction, token: Option<string>, item: Option<Item>,
                             reply: Result<Reactions, string>): (o: InteractionOutcome)
    ensures o.sent.Some? <==> HasToken(token) && item.Some? && item.value.MessageItem?
    ensures o.sent.Some? ==> o.sent.value == kind
    ensures o.update.Some? <==> o.sent.Some? && reply.Success?
    ensures o.update.Some? ==> o.update.value == ApplyReactions(item.value.message, reply.value)
  {
    if HasToken(token) && item.Some? && item.value.MessageItem? then
      match reply
      case Success(x) => InteractionOutcome(Some(kind), Some(ApplyReactions(item.value.message, x)))
      case Failure(_) => InteractionOutcome(Some(kind), None)
    else InteractionOutcome(None, None)
  }

  /** `currentUser?.email || ''`. */
  function ViewerEmail(user: Option<User>): (e: string)
    ensures user.Some? ==> e == user.value.email
    ensures user.None? ==> e == ""
  {
    match user
    case Some(u) => u.email
    case None => ""
  }

  /** The heart is filled when the viewer's email is among the favourites. */
  predicate HeartFilled(m: Message, user: Option<User>)
    ensures user.Some? ==> (HeartFilled(m, user) <==> user.value.email in m.favorite)
    ensures HeartFilled(m, user) ==> FavoriteCount(m) > 0
  {
    ViewerEmail(user) in m.favorite
  }

  function FavoriteCount(m: Message): nat {
    |m.favorite|
  }

  function CommentCount(m: Message): nat {
    |m.comments|
  }

  /** After a successful reaction the heart and the count show the server's favourite
      list, whatever the message showed before. */
  lemma HeartFollowsReply(kind: Interaction, token: Option<string>, m: Message,
                          x: Reactions, user: Option<User>)
    requires HasToken(token)
    ensures var o := HandleInteraction(kind, token, Some(MessageItem(m)), Success(x));
      && o.update.Some?
      && (HeartFilled(o.update.value, user) <==> ViewerEmail(user) in x.favorite)
      && FavoriteCount(o.update.value) == |x.favorite|
      && CommentCount(o.update.value) == CommentCount(m)
  {
  }

  /** With nobody signed in, the heart is filled only if the empty text is a
      favourite. */
  lemma HeartWithoutUser(m: Message)
    ensures HeartFilled(m, None) <==> "" in m.favorite
  {
  }
}

=== FILE: filter_config.dfy ===
/** The static category tree that drives catalog browsing (data/filterConfig.ts). */
module FilterConfig {
  import opened Wrappers

  datatype FilterKind = Category | Action

  /** One selectable entry; `kind` and `subFilters` are optional in the source. */
  datatype Filter = Filter(
    id: string,
    name: string,
    icon: string,
    kind: Option<FilterKind>,
    subFilters: Option<seq<Filter>>)

  function Cat(id: string, name: string, icon: string): Filter {
    Filter(id, name, icon, Some(Category), None)
  }

  /** The root entries: four categories (with an empty `subFilters`) and two actions. */
  const Root: seq<Filter> := [
    Filter("male", "Masculino", "man-outline", Some(Category), Some([])),
    Filter("female", "Feminino", "woman-outline", Some(Category), Some([])),
    Filter("graduation", "Formatura", "school-outline", Some(Category), Some([])),
    Filter("wedding", "Casamento", "heart-outline", Some(Category), Some([])),
    Filter("wallet", "Carteira", "wallet", Some(Action), None),
    Filter("profile", "Perfil", "person", Some(Action), None)
  ]

  const Male: seq<Filter> := [
    Cat("rings", "An\U{E9}is", "ellipse"),
    Cat("necklaces", "Colares", "link"),
    Cat("bracelets", "Pulseiras", "watch-outline"),
    Cat("earrings", "Brincos", "ear"),
    Cat("watches", "Rel\U{F3}gios", "time"),
    Cat("chains", "Correntes", "git-branch")
  ]

  const Female: seq<Filter> := [
    Cat("rings", "An\U{E9}is", "ellipse"),
    Cat("necklaces", "Colares", "link"),
    Cat("bracelets", "Pulseiras", "watch-outline"),
    Cat("earrings", "Brincos", "ear"),
    Cat("anklets", "Tornozeleiras", "ellipse-outline"),
    Cat("pendants", "Pingentes", "diamond")
  ]

  const Graduation: seq<Filter> := [
    Cat("rings", "An\U{E9}is", "ellipse"),
    Cat("medals", "Medalhas", "medal"),
    Cat("pins", "Broches", "star"),
    Cat("cufflinks", "Abotoaduras", "square"),
    Cat("pendants", "Pingentes", "diamond"),
    Cat("sets", "Conjuntos", "albums")
  ]

  const Wedding: seq<Filter> := [
    Cat("rings", "Alian\U{E7}as", "ellipse"),
    Cat("sets", "Conjuntos", "albums"),
    Cat("tiaras", "Tiaras", "sunny"),
    Cat("bracelets", "Pulseiras", "watch-outline"),
    Cat("earrings", "Brincos", "ear"),
    Cat("necklaces", "Colares", "link")
  ]

  /** `filterTree`: the children shown under each key. */
  const Tree: map<string, seq<Filter>> := map[
    "root" := Root,
    "male" := Male,
    "female" := Female,
    "graduation" := Graduation,
    "wedding" := Wedding
  ]

  /** The four category keys below the root. */
  const CategoryKeys: seq<string> := ["male", "female", "graduation", "wedding"]

  function Ids(fs: seq<Filter>): (ids: seq<string>)
    ensures |ids| == |fs|
    ensures forall i :: 0 <= i < |fs| ==> ids[i] == fs[i].id
  {
    seq(|fs|, i requires 0 <= i < |fs| => fs[i].id)
  }

  /** The store's parent test `filterTree[id] && filterTree[id].length > 0`. */
  predicate HasSubFilters(id: string) {
    id in Tree && |Tree[id]| > 0
  }

  /** `getFiltersForCategory`: the entry for a known key (an array is truthy even when
      empty), the root entries for any other id. */
  function GetFiltersForCategory(id: string): (fs: seq<Filter>)
    ensures id in Tree ==> fs == Tree[id]
    ensures id !in Tree ==> fs == Root
    ensures |fs| == 6
  {
    if id in Tree then Tree[id] else Tree["root"]
  }

  /** The keys of the tree are the root and the four categories. */
  lemma TreeKeys()
    ensures Tree.Keys == {"root"} + set c | c in CategoryKeys
    ensures forall c :: c in CategoryKeys ==> HasSubFilters(c)
    ensures HasSubFilters("root")
  {
  }

  /** The root holds exactly the four categories followed by the two actions. */
  lemma RootShape()
    ensures Ids(Tree["root"]) == CategoryKeys + ["wallet", "profile"]
    ensures forall i :: 0 <= i < 4 ==> Tree["root"][i].kind == Some(Category)
    ensures forall i :: 4 <= i < 6 ==> Tree["root"][i].kind == Some(Action)
  {
  }

  /** Every category key has six children, none of which is itself a key; nor is either
      action. So below the root no selection can deepen the breadcrumb. */
  lemma LeavesAreNotKeys()
    ensures forall c :: c in CategoryKeys ==> |Tree[c]| == 6
    ensures forall c, i :: c in CategoryKeys && 0 <= i < |Tree[c]| ==> Tree[c][i].id !in Tree
    ensures "wallet" !in Tree && "profile" !in Tree
  {
  }
}

=== FILE: owner_info.dfy ===
/** The owner badge (components/home/OwnerInfo.tsx): initials, display name and role
    text for an optional owner name and role. */
module OwnerInfo {
  import opened Wrappers
  import opened Strings
  import opened Seqs

  /** How JavaScript renders `part[0]` inside a template literal: the first character,
      or the text `undefined` when the part is empty. */
  function FirstCharAsText(part: string): (r: string)
    ensures |part| > 0 ==> r == [part[0]]
    ensures |part| == 0 ==> r == "undefined"
  {
    if |part| > 0 then [part[0]] else "undefined"
  }

  /** A name that is present and not empty, i.e. truthy. */
  predicate Present(name: Option<string>) {
    name.Some? && name.value != ""
  }

  /** `getUserInitials` as written: `'U'` for a missing name; with a space, the first
      characters of the first two parts; otherwise the first two characters, all
      upper-cased. An empty part contributes the text `undefined`. */
  function InitialsAsWritten(name: Option<string>): (r: string)
    ensures !Present(name) ==> r == "U"
    ensures Present(name) && |Split(name.value, ' ')| < 2 ==>
      |r| <= 2 && r == ToUpper(Take(name.value, 2)) && |r| >= 1
    ensures Present(name) && |Split(name.value, ' ')| >= 2 ==>
      var names := Split(name.value, ' ');
      |names[0]| > 0 && |names[1]| > 0 ==> r == [UpperChar(names[0][0]), UpperChar(names[1][0])]
    ensures NoLowerCase(r)
  {
    if !Present(name) then "U"
    else
      var names := Split(name.value, ' ');
      if |names| >= 2 then
        ToUpper(FirstCharAsText(names[0]) + FirstCharAsText(names[1]))
      else
        ToUpper(Take(name.value, 2))
  }

  /** A leading space splits off an empty first part. */
  lemma SplitLeadingSpace(last: string)
    requires ' ' !in last
    ensures Split([' '] + last, ' ') == ["", last]
  {
    SplitNoSeparator(last, ' ');
    SplitAtFirstSeparator([], ' ', last);
    assert [] + [' '] + last == [' '] + last;
  }

  /** A doubled space between two words splits into an empty middle part. */
  lemma SplitDoubleSpace(first: string, last: string)
    requires ' ' !in first && ' ' !in last
    ensures Split(first + "  " + last, ' ') == [first, "", last]
  {
    var tail := [' '] + last;
    SplitLeadingSpace(last);
    SplitAtFirstSeparator(first, ' ', tail);
    assert first + [' '] + tail == first + "  " + last;
  }

  /** Two spaces in a row give an empty second part, so a name such as `Ana  Silva`
      gets the badge `AUNDEFINED`. */
  lemma DoubleSpaceShowsUndefined(first: string, last: string)
    requires first != "" && ' ' !in first && ' ' !in last
    ensures InitialsAsWritten(Some(first + "  " + last)) == [UpperChar(first[0])] + "UNDEFINED"
  {
    SplitDoubleSpace(first, last);
    var t := FirstCharAsText(first) + FirstCharAsText("");
    assert t == [first[0]] + "undefined";
    var u := ToUpper(t);
    assert u[0] == UpperChar(first[0]);
    assert u[1..] == "UNDEFINED" by {
      forall i | 1 <= i < 10 ensures u[i] == UpperChar(t[i]) {
      }
    }
  }

  /** A part of the name with at least one character. */
  predicate IsWord(part: string) {
    part != ""
  }

  /** The initials as evidently intended: with a space, the first letters of the first
      two non-empty parts, as the avatar skips empty words; `'U'` stands in when every
      part is empty. Always one or two upper-case characters. */
  function Initials(name: Option<string>): (r: string)
    ensures 1 <= |r| <= 2
    ensures NoLowerCase(r)
    ensures !Present(name) ==> r == "U"
    ensures Present(name) && |Split(name.value, ' ')| < 2 ==> r == ToUpper(Take(name.value, 2))
  {
    if !Present(name) then "U"
    else
      var names := Split(name.value, ' ');
      if |names| >= 2 then
        var words := Keep(names, IsWord);
        KeepMembers(names, IsWord);
        if |words| == 0 then "U"
        else if |words| == 1 then
          assert words[0] in words;
          ToUpper([words[0][0]])
        else
          assert words[0] in words && words[1] in words;
          ToUpper([words[0][0], words[1][0]])
      else
        ToUpper(Take(name.value, 2))
  }

  /** The non-empty parts start with the first two parts when neither is empty. */
  lemma FirstTwoWords(names: seq<string>)
    requires |names| >= 2 && names[0] != "" && names[1] != ""
    ensures var words := Keep(names, IsWord);
      |words| >= 2 && words[0] == names[0] && words[1] == names[1]
  {
    KeepStep(names, IsWord);
    KeepStep(names[1..], IsWord);
    assert names[1..][1..] == names[2..];
  }

  /** The two definitions agree on every name whose first two parts are not empty,
      which covers every name without leading, trailing or doubled spaces. */
  lemma InitialsAgree(name: Option<string>)
    requires Present(name)
    requires var names := Split(name.value, ' ');
      |names| < 2 || (names[0] != "" && names[1] != "")
    ensures InitialsAsWritten(name) == Initials(name)
  {
    var names := Split(name.value, ' ');
    if |names| >= 2 {
      FirstTwoWords(names);
    }
  }

  /** They disagree exactly when the as-written result spells `undefined`. */
  lemma InitialsDisagreeOnEmptyPart(name: Option<string>)
    requires Present(name)
    requires var names := Split(name.value, ' ');
      |names| >= 2 && (names[0] == "" || names[1] == "")
    ensures |InitialsAsWritten(name)| >= 9
    ensures |Initials(name)| <= 2
  {
  }

  /** With the correction, a doubled space no longer matters: `Ana  Silva` gets `AS`. */
  lemma DoubleSpaceSkipped(first: string, last: string)
    requires first != "" && last != "" && ' ' !in first && ' ' !in last
    ensures Initials(Some(first + "  " + last)) == [UpperChar(first[0]), UpperChar(last[0])]
  {
    var names := [first, "", last];
    SplitDoubleSpace(first, last);
    KeepStep(names, IsWord);
    KeepStep(names[1..], IsWord);
    KeepStep(names[2..], IsWord);
    assert names[1..][1..] == names[2..] && names[2..][1..] == [];
    assert Keep(names, IsWord) == [first, last];
  }

  const DefaultDisplayName: string := "Usu\U{E1}rio"
  const DefaultRoleText: string := "USU\U{C1}RIO"

  /** `ownerName || 'Usuário'`. */
  function DisplayName(name: Option<string>): (r: string)
    ensures r != ""
    ensures Present(name) ==> r == name.value
    ensures !Present(name) ==> r == DefaultDisplayName
  {
    if Present(name) then name.value else DefaultDisplayName
  }

  /** `ownerRole?.toUpperCase() || 'USUÁRIO'`: upper-casing keeps a role non-empty, so
      any present role is shown upper-cased. */
  function RoleText(role: Option<string>): (r: string)
    ensures r != ""
    ensures NoLowerCase(r)
    ensures Present(role) ==> r == ToUpper(role.value)
    ensures !Present(role) ==> r == DefaultRoleText
  {
    match role
    case Some(text) =>
      var upper := ToUpper(text);
      if upper != "" then upper else DefaultRoleText
    case None => DefaultRoleText
  }
}

=== FILE: products.dfy ===
/** The client-side product shape (data/products.ts), plus the `subcategory` field the
    store adds when it loads the catalog. */
module ProductData {
  import opened Wrappers

  datatype Shipping = Shipping(free: bool, days: int)

  /** `price` and `originalPrice` are `None` where JavaScript would hold `NaN` or
      `undefined`; the 3D-model and owner-id fields are not part of this model. */
  datatype Product = Product(
    id: string,
    name: string,
    description: string,
    price: Option<real>,
    originalPrice: Option<real>,
    discount: Option<int>,
    images: seq<string>,
    thumbnail: string,
    category: string,
    subcategory: Option<string>,
    rating: real,
    reviewCount: int,
    featured: bool,
    shipping: Shipping,
    videos: seq<string>,
    ownerName: Option<string>,
    ownerRole: Option<string>)
}

=== FILE: register.dfy ===
/** The sign-up form's submit rule (app/auth/register.tsx): an ordered chain of checks,
    then the request handed to the store's `register` action. The alert dialogs become
    the error values; the asynchronous call itself is not modelled. */
module Register {
  import opened Wrappers

  /** The four roles the form offers. */
  datatype FormRole = Patient | Professional | Association | Store

  /** The two roles the backend knows. */
  datatype BackendRole = Buyer | Seller

  datatype RegisterForm = RegisterForm(
    name: string,
    email: string,
    phone: string,
    password: string,
    passwordConfirmation: string,
    role: FormRole,
    agreeToTerms: bool)

  /** The reasons a submission is refused, in the order they are checked. */
  datatype RegisterError = MissingFields | TermsNotAccepted | PasswordTooShort

  /** The arguments of `register(name, email, password, passwordConfirmation, phone, role)`. */
  datatype RegisterRequest = RegisterRequest(
    name: string,
    email: string,
    password: string,
    passwordConfirmation: string,
    phone: string,
    role: BackendRole)

  const MinPasswordLength: nat := 8

  /** The alert text shown for each refusal. */
  function ErrorText(e: RegisterError): (t: string)
    ensures t != ""
  {
    match e
    case MissingFields => "Por favor, preencha todos os campos obrigat\U{F3}rios"
    case TermsNotAccepted => "Voc\U{EA} deve concordar com os Termos da MedGarden"
    case PasswordTooShort => "A senha deve ter no m\U{ED}nimo 8 caracteres"
  }

  /** Patients are buyers; professionals, associations and stores are sellers. */
  function BackendRoleOf(role: FormRole): (b: BackendRole)
    ensures b == Buyer <==> role == Patient
  {
    if role == Patient then Buyer else Seller
  }

  /** Name, email and password are the required fields; the phone is not. */
  predicate RequiredPresent(f: RegisterForm) {
    f.name != "" && f.email != "" && f.password != ""
  }

  /** `handleRegister` up to the store call: the first failing check wins, and a form
      that passes all three becomes a request whose confirmation is the password. */
  function Validate(f: RegisterForm): (r: Result<RegisterRequest, RegisterError>)
    ensures r == Failure(MissingFields) <==> !RequiredPresent(f)
    ensures r == Failure(TermsNotAccepted) <==> RequiredPresent(f) && !f.agreeToTerms
    ensures r == Failure(PasswordTooShort) <==>
      RequiredPresent(f) && f.agreeToTerms && |f.password| < MinPasswordLength
    ensures r.Success? <==>
      RequiredPresent(f) && f.agreeToTerms && |f.password| >= MinPasswordLength
    ensures r.Success? ==>
      && r.value.name == f.name && r.value.email == f.email && r.value.phone == f.phone
      && r.value.password == f.password && r.value.passwordConfirmation == f.password
      && (r.value.role == Buyer <==> f.role == Patient)
  {
    if !RequiredPresent(f) then Failure(MissingFields)
    else if !f.agreeToTerms then Failure(TermsNotAccepted)
    else if |f.password| < MinPasswordLength then Failure(PasswordTooShort)
    else Success(RegisterRequest(f.name, f.email, f.password, f.password, f.phone, BackendRoleOf(f.role)))
  }

  /** The confirmation field is never read: any value leads to the same outcome. */
  lemma ConfirmationIgnored(f: RegisterForm, other: string)
    ensures Validate(f.(passwordConfirmation := other)) == Validate(f)
  {
  }

  /** The phone is never checked: an empty phone is accepted exactly when the same
      form with any other phone is, and it is passed through unchanged. */
  lemma PhoneOptional(f: RegisterForm, other: string)
    ensures Validate(f.(phone := "")).Success? <==> Validate(f.(phone := other)).Success?
    ensures Validate(f.(phone := "")).Success? ==> Validate(f.(phone := "")).value.phone == ""
  {
  }

  /** Every form that lacks a required field is refused for that reason, whatever else
      is wrong with it. */
  lemma MissingFieldsComeFirst(f: RegisterForm)
    requires f.name == "" || f.email == "" || f.password == ""
    ensures Validate(f.(agreeToTerms := false)) == Failure(MissingFields)
    ensures Validate(f) == Failure(MissingFields)
  {
  }
}

=== FILE: root_layout.dfy ===
/** The authentication route guard of the root layout (app/_layout.tsx): whenever the
    session flag or the route changes, it may replace the route. */
module RootLayout {

  datatype Redirect = NoRedirect | ToLogin | ToTabs

  /** `segments[0] === 'auth'`; an empty route has no first segment. */
  predicate InAuthGroup(segments: seq<string>) {
    |segments| > 0 && segments[0] == "auth"
  }

  /** The second effect: outside the auth group a signed-out user is sent to the login
      screen, inside it a signed-in user is sent to the tabs; otherwise nothing. */
  function Decide(isAuthenticated: bool, segments: seq<string>): (r: Redirect)
    ensures r == ToLogin <==> !isAuthenticated && !InAuthGroup(segments)
    ensures r == ToTabs <==> isAuthenticated && InAuthGroup(segments)
    ensures r == NoRedirect <==> (isAuthenticated <==> !InAuthGroup(segments))
  {
    if !isAuthenticated && !InAuthGroup(segments) then ToLogin
    else if isAuthenticated && InAuthGroup(segments) then ToTabs
    else NoRedirect
  }

  /** The route segments of each redirect target: `/auth/login` and `/(tabs)`. */
  function Target(r: Redirect, current: seq<string>): (segments: seq<string>)
    ensures r == ToLogin ==> InAuthGroup(segments)
    ensures r == ToTabs ==> !InAuthGroup(segments)
    ensures r == NoRedirect ==> segments == current
  {
    match r
    case ToLogin => ["auth", "login"]
    case ToTabs => ["(tabs)"]
    case NoRedirect => current
  }

  /** After following a redirect, the guard asks for no further one: the targets are
      fixpoints of the rule while the session flag is unchanged. */
  lemma RedirectSettles(isAuthenticated: bool, segments: seq<string>)
    ensures Decide(isAuthenticated, Target(Decide(isAuthenticated, segments), segments)) == NoRedirect
  {
  }

  /** The guard never sends a user to where they already are. */
  lemma RedirectMoves(isAuthenticated: bool, segments: seq<string>)
    requires Decide(isAuthenticated, segments) != NoRedirect
    ensures InAuthGroup(Target(Decide(isAuthenticated, segments), segments)) != InAuthGroup(segments)
  {
  }
}

=== FILE: seqs.dfy ===
/** Sequence helpers: JavaScript's `array.filter` and the facts the store relies on. */
module Seqs {

  /** `a` can be obtained from `b` by deleting elements, keeping the order. */
  ghost predicate Subsequence<T>(a: seq<T>, b: seq<T>)
    decreases |b|
  {
    || |a| == 0
    || (&& |b| > 0
        && ((a[0] == b[0] && Subsequence(a[1..], b[1..])) || Subsequence(a, b[1..])))
  }

  predicate NoDuplicates<T(==)>(s: seq<T>) {
    forall i, j :: 0 <= i < j < |s| ==> s[i] != s[j]
  }

  /** `s.filter(keep)`: the elements satisfying `keep`, in their original order. */
  function Keep<T(!new)>(s: seq<T>, keep: T -> bool): (r: seq<T>)
    ensures |r| <= |s|
  {
    if |s| == 0 then []
    else
      var rest := Keep(s[1..], keep);
      if keep(s[0]) then [s[0]] + rest else rest
  }

  /** The filtered list holds exactly the elements that pass the test. */
  lemma {:induction false} KeepMembers<T(!new)>(s: seq<T>, keep: T -> bool)
    ensures forall x :: x in Keep(s, keep) <==> x in s && keep(x)
  {
    if |s| > 0 {
      KeepMembers(s[1..], keep);
      assert forall x :: x in s <==> x == s[0] || x in s[1..];
    }
  }

  /** Every element that passes the test is kept as often as it occurs; every other
      element is dropped. */
  lemma {:induction false} KeepCounts<T(!new)>(s: seq<T>, keep: T -> bool)
    ensures forall x :: multiset(Keep(s, keep))[x] == if keep(x) then multiset(s)[x] else 0
  {
    if |s| > 0 {
      KeepCounts(s[1..], keep);
      assert s == [s[0]] + s[1..];
      assert multiset(s) == multiset([s[0]]) + multiset(s[1..]);
      var rest := Keep(s[1..], keep);
      if keep(s[0]) {
        assert multiset([s[0]] + rest) == multiset([s[0]]) + multiset(rest);
      }
    }
  }

  /** A filtered list keeps the order of the original. */
  lemma {:induction false} KeepSubsequence<T(!new)>(s: seq<T>, keep: T -> bool)
    ensures Subsequence(Keep(s, keep), s)
  {
    if |s| > 0 {
      KeepSubsequence(s[1..], keep);
      var rest := Keep(s[1..], keep);
      if keep(s[0]) {
        assert ([s[0]] + rest)[1..] == rest;
      }
    }
  }

  /** Filtering with a test every element passes changes nothing. */
  lemma {:induction false} KeepAll<T(!new)>(s: seq<T>, keep: T -> bool)
    requires forall i :: 0 <= i < |s| ==> keep(s[i])
    ensures Keep(s, keep) == s
  {
    if |s| > 0 {
      KeepAll(s[1..], keep);
      assert [s[0]] + s[1..] == s;
    }
  }

  /** Filtering distributes over concatenation. */
  lemma {:induction false} KeepAppend<T(!new)>(a: seq<T>, b: seq<T>, keep: T -> bool)
    ensures Keep(a + b, keep) == Keep(a, keep) + Keep(b, keep)
  {
    if |a| == 0 {
      assert a + b == b;
    } else {
      var ab := a + b;
      assert ab[1..] == a[1..] + b;
      assert ab[0] == a[0];
      KeepAppend(a[1..], b, keep);
      var tail := Keep(a[1..], keep);
      if keep(a[0]) {
        assert Keep(ab, keep) == [a[0]] + Keep(a[1..] + b, keep);
        assert Keep(a, keep) == [a[0]] + tail;
        assert [a[0]] + (tail + Keep(b, keep)) == ([a[0]] + tail) + Keep(b, keep);
      } else {
        assert Keep(ab, keep) == Keep(a[1..] + b, keep);
        assert Keep(a, keep) == tail;
      }
    }
  }

  /** A filtered list of distinct elements is still made of distinct elements. */
  lemma {:induction false} KeepNoDuplicates<T(!new)>(s: seq<T>, keep: T -> bool)
    requires NoDuplicates(s)
    ensures NoDuplicates(Keep(s, keep))
  {
    if |s| > 0 {
      assert NoDuplicates(s[1..]) by {
        forall i, j | 0 <= i < j < |s[1..]| ensures s[1..][i] != s[1..][j] {
          assert s[1..][i] == s[i + 1] && s[1..][j] == s[j + 1];
        }
      }
      KeepNoDuplicates(s[1..], keep);
      KeepMembers(s[1..], keep);
      var rest := Keep(s[1..], keep);
      if keep(s[0]) {
        assert s[0] !in s[1..] by {
          forall k | 0 <= k < |s[1..]| ensures s[1..][k] != s[0] {
            assert s[1..][k] == s[k + 1];
          }
        }
        assert s[0] !in rest;
        var r := [s[0]] + rest;
        forall i, j | 0 <= i < j < |r| ensures r[i] != r[j] {
          if i == 0 {
            assert r[j] == rest[j - 1];
            assert r[j] in rest;
          } else {
            assert r[i] == rest[i - 1] && r[j] == rest[j - 1];
          }
        }
      }
    }
  }

  /** One step of `filter`: the head is kept or dropped, then the rest is filtered. */
  lemma KeepStep<T(!new)>(s: seq<T>, keep: T -> bool)
    requires |s| > 0
    ensures Keep(s, keep) == (if keep(s[0]) then [s[0]] else []) + Keep(s[1..], keep)
  {
  }

  /** Nothing passes the test, so nothing is kept. */
  lemma {:induction false} KeepNone<T(!new)>(s: seq<T>, keep: T -> bool)
    requires forall i :: 0 <= i < |s| ==> !keep(s[i])
    ensures Keep(s, keep) == []
  {
    if |s| > 0 {
      KeepNone(s[1..], keep);
    }
  }

  /** Only the head passes the test, so only the head is kept. */
  lemma KeepFirstOnly<T(!new)>(s: seq<T>, keep: T -> bool)
    requires |s| > 0 && keep(s[0])
    requires forall i :: 1 <= i < |s| ==> !keep(s[i])
    ensures Keep(s, keep) == [s[0]]
  {
    KeepNone(s[1..], keep);
  }

  /** `s.slice(0, n)` and `s.substring(0, n)` for `n >= 0`. */
  function Take<T>(s: seq<T>, n: nat): (r: seq<T>)
    ensures |r| <= n && |r| <= |s|
    ensures r == s[..|r|]
    ensures |s| >= n ==> |r| == n
  {
    if |s| <= n then s else s[..n]
  }
}

=== FILE: star_rating.dfy ===
/** The star row (components/ui/StarRating.tsx): `maxRating` glyphs, filled up to the
    rating, with a half star drawn as a full one. */
module StarRating {

  const FilledStar: char := '\U{2B50}'
  const EmptyStar: char := '\U{2606}'

  /** Truncation toward zero, as JavaScript's `%` uses it. */
  function Trunc(x: real): (t: int)
    ensures x >= 0.0 ==> t == x.Floor
    ensures x < 0.0 ==> t == -((-x).Floor)
    ensures 0.0 <= (if x >= 0.0 then x - t as real else t as real - x) < 1.0
  {
    if x >= 0.0 then x.Floor else -((-x).Floor)
  }

  /** `x % 1`: the fractional part, carrying the sign of `x`. */
  function FracPart(x: real): (f: real)
    ensures -1.0 < f < 1.0
    ensures x >= 0.0 ==> 0.0 <= f && f == x - x.Floor as real
    ensures x < 0.0 ==> f <= 0.0
  {
    x - Trunc(x) as real
  }

  /** `rating % 1 >= 0.5`: never true for a negative rating. */
  predicate HasHalfStar(rating: real)
    ensures HasHalfStar(rating) <==> rating >= 0.0 && rating - rating.Floor as real >= 0.5
  {
    FracPart(rating) >= 0.5
  }

  /** The number of glyphs drawn filled: the whole stars plus a rounded-up half, kept
      between none and all of them. */
  function FilledCount(rating: real, maxRating: int): (k: nat)
    ensures k <= (if maxRating > 0 then maxRating else 0)
  {
    var want := rating.Floor + (if HasHalfStar(rating) then 1 else 0);
    if want <= 0 || maxRating <= 0 then 0
    else if want < maxRating then want
    else maxRating
  }

  /** The glyph at position `i`: filled below the whole part, and at it when there is a
      half star. */
  function Glyph(rating: real, i: int): (c: char)
    ensures c == FilledStar || c == EmptyStar
  {
    if i < rating.Floor then FilledStar
    else if i == rating.Floor && HasHalfStar(rating) then FilledStar
    else EmptyStar
  }

  function Repeat(c: char, n: nat): (s: string)
    ensures |s| == n
    ensures forall i :: 0 <= i < n ==> s[i] == c
  {
    seq(n, _ => c)
  }

  /** `renderStars()`: one glyph per position below `maxRating` (none when it is not
      positive), joined together. */
  method RenderStars(rating: real, maxRating: int) returns (stars: string)
    ensures |stars| == (if maxRating > 0 then maxRating else 0)
    ensures forall i :: 0 <= i < |stars| ==>
      (stars[i] == FilledStar <==> i < rating.Floor || (i == rating.Floor && HasHalfStar(rating)))
    ensures forall i :: 0 <= i < |stars| ==> stars[i] == FilledStar || stars[i] == EmptyStar
    ensures stars == Repeat(FilledStar, FilledCount(rating, maxRating)) +
                     Repeat(EmptyStar, |stars| - FilledCount(rating, maxRating))
  {
    stars := "";
    var i := 0;
    while i < maxRating
      invariant 0 <= i
      invariant maxRating > 0 ==> i <= maxRating
      invariant maxRating <= 0 ==> i == 0
      invariant |stars| == i
      invariant forall j :: 0 <= j < i ==> stars[j] == Glyph(rating, j)
    {
      if i < rating.Floor {
        stars := stars + [FilledStar];
      } else if i == rating.Floor && HasHalfStar(rating) {
        stars := stars + [FilledStar];
      } else {
        stars := stars + [EmptyStar];
      }
      i := i + 1;
    }
    StarsShape(rating, maxRating);
  }

  /** The row as every screen draws it: `maxRating` is left at its default of five. */
  method RenderDefault(rating: real) returns (stars: string)
    ensures |stars| == 5
    ensures stars == Repeat(FilledStar, FilledCount(rating, 5)) + Repeat(EmptyStar, 5 - FilledCount(rating, 5))
  {
    stars := RenderStars(rating, 5);
  }

  /** The glyphs as one expression: exactly `FilledCount` filled stars, then empty ones.
      So the filled glyphs form a prefix, and their number is the whole part plus the
      half star, capped at `maxRating`. */
  lemma {:induction false} StarsShape(rating: real, maxRating: int)
    ensures var n := if maxRating > 0 then maxRating else 0;
      var k := FilledCount(rating, maxRating);
      forall i :: 0 <= i < n ==> Glyph(rating, i) == (Repeat(FilledStar, k) + Repeat(EmptyStar, n - k))[i]
  {
    var n := if maxRating > 0 then maxRating else 0;
    var k := FilledCount(rating, maxRating);
    var want := rating.Floor + (if HasHalfStar(rating) then 1 else 0);
    forall i | 0 <= i < n
      ensures Glyph(rating, i) == (Repeat(FilledStar, k) + Repeat(EmptyStar, n - k))[i]
    {
      assert Glyph(rating, i) == FilledStar <==> i < want;
      assert i < k <==> i < want;
    }
  }

  /** No empty glyph precedes a filled one. */
  lemma FilledFormPrefix(rating: real, i: int, j: int)
    requires 0 <= i < j
    requires Glyph(rating, j) == FilledStar
    ensures Glyph(rating, i) == FilledStar
  {
  }

  /** For a non-negative rating the filled count is `min(maxRating, floor + half)`. */
  lemma FilledCountNonNegative(rating: real, maxRating: int)
    requires rating >= 0.0 && maxRating >= 0
    ensures var want := rating.Floor + (if HasHalfStar(rating) then 1 else 0);
      FilledCount(rating, maxRating) == if want < maxRating then want else maxRating
  {
  }

  /** A half star rounds up: 3.5 out of 5 shows four filled glyphs, 3.4 shows three. */
  lemma HalfStarRoundsUp()
    ensures FilledCount(3.5, 5) == 4
    ensures FilledCount(3.4, 5) == 3
    ensures FilledCount(7.0, 5) == 5
  {
    assert (3.5).Floor == 3 && (3.4).Floor == 3 && (7.0).Floor == 7;
  }

  /** A negative rating shows no filled glyph: its `% 1` is never at least one half. */
  lemma NegativeRatingEmpty(rating: real, maxRating: int)
    requires rating < 0.0
    ensures FilledCount(rating, maxRating) == 0
    ensures forall i :: 0 <= i ==> Glyph(rating, i) == EmptyStar
  {
  }
}

=== FILE: strings.dfy ===
/** String helpers with JavaScript semantics: ASCII case mapping, `split(' ')`,
    `join` and `trim()`. */
module Strings {

  /** Upper-case an ASCII letter; every other character is left alone. */
  function UpperChar(c: char): (u: char)
    ensures 'a' <= c <= 'z' ==> 'A' <= u <= 'Z'
    ensures !('a' <= c <= 'z') ==> u == c
  {
    if 'a' <= c <= 'z' then (c as int - 32) as char else c
  }

  /** Lower-case an ASCII letter; every other character is left alone. */
  function LowerChar(c: char): (l: char)
    ensures 'A' <= c <= 'Z' ==> 'a' <= l <= 'z'
    ensures !('A' <= c <= 'Z') ==> l == c
  {
    if 'A' <= c <= 'Z' then (c as int + 32) as char else c
  }

  function ToUpper(s: string): (r: string)
    ensures |r| == |s|
    ensures forall i :: 0 <= i < |s| ==> r[i] == UpperChar(s[i])
  {
    seq(|s|, i requires 0 <= i < |s| => UpperChar(s[i]))
  }

  function ToLower(s: string): (r: string)
    ensures |r| == |s|
    ensures forall i :: 0 <= i < |s| ==> r[i] == LowerChar(s[i])
  {
    seq(|s|, i requires 0 <= i < |s| => LowerChar(s[i]))
  }

  /** No ASCII lower-case letter occurs in `s`. */
  predicate NoLowerCase(s: string) {
    forall i :: 0 <= i < |s| ==> !('a' <= s[i] <= 'z')
  }

  /** Upper-casing leaves no lower-case letter behind. */
  lemma UpperHasNoLowerCase(s: string)
    ensures NoLowerCase(ToUpper(s))
  {
  }

  /** Glue `parts` together with `sep` between neighbours: `parts.join(sep)`. */
  function Join(parts: seq<string>, sep: char): string
    requires |parts| >= 1
  {
    if |parts| == 1 then parts[0] else parts[0] + [sep] + Join(parts[1..], sep)
  }

  /** The first part opens the joined text, and the separator follows it when there are
      more parts. */
  lemma JoinStartsWithFirstPart(parts: seq<string>, sep: char)
    requires |parts| >= 1
    ensures var r := Join(parts, sep);
      |r| >= |parts[0]| && r[..|parts[0]|] == parts[0]
      && (|parts| > 1 ==> |r| > |parts[0]| && r[|parts[0]|] == sep)
  {
    if |parts| > 1 {
      var r := Join(parts, sep);
      assert r == parts[0] + [sep] + Join(parts[1..], sep);
    }
  }

  /** JavaScript's `s.split(sep)` for a one-character separator: always at least one
      part, empty parts where separators touch or sit at either end. */
  function Split(s: string, sep: char): (parts: seq<string>)
    ensures |parts| >= 1
    ensures forall k :: 0 <= k < |parts| ==> sep !in parts[k]
    ensures Join(parts, sep) == s
    decreases |s|
  {
    if |s| == 0 then [""]
    else if s[0] == sep then [""] + Split(s[1..], sep)
    else
      var rest := Split(s[1..], sep);
      [[s[0]] + rest[0]] + rest[1..]
  }

  /** A text with no separator is one part. */
  lemma {:induction false} SplitNoSeparator(w: string, sep: char)
    requires sep !in w
    ensures Split(w, sep) == [w]
    decreases |w|
  {
    if |w| > 0 {
      assert sep !in w[1..];
      SplitNoSeparator(w[1..], sep);
      assert [w[0]] + w[1..] == w;
    }
  }

  /** Splitting `w + sep + t` peels `w` off as the first part. */
  lemma {:induction false} SplitAtFirstSeparator(w: string, sep: char, t: string)
    requires sep !in w
    ensures Split(w + [sep] + t, sep) == [w] + Split(t, sep)
    decreases |w|
  {
    var s := w + [sep] + t;
    if |w| == 0 {
      assert s[0] == sep;
      assert s[1..] == t;
    } else {
      assert s[0] == w[0];
      assert s[1..] == w[1..] + [sep] + t;
      assert sep !in w[1..];
      SplitAtFirstSeparator(w[1..], sep, t);
      assert [w[0]] + w[1..] == w;
    }
  }

  /** `split` undoes `join` whenever no part contains the separator. */
  lemma {:induction false} SplitJoin(parts: seq<string>, sep: char)
    requires |parts| >= 1
    requires forall k :: 0 <= k < |parts| ==> sep !in parts[k]
    ensures Split(Join(parts, sep), sep) == parts
    decreases |parts|
  {
    if |parts| == 1 {
      SplitNoSeparator(parts[0], sep);
    } else {
      SplitJoin(parts[1..], sep);
      SplitAtFirstSeparator(parts[0], sep, Join(parts[1..], sep));
      assert [parts[0]] + parts[1..] == parts;
    }
  }

  /** The characters `String.prototype.trim` removes: ECMAScript WhiteSpace
      (TAB, VT, FF, SP, NBSP, ZWNBSP and the Zs space separators) and LineTerminator. */
  predicate IsJsSpace(c: char) {
    || c == '\t' || c == '\n' || c == '\U{000B}' || c == '\U{000C}' || c == '\r' || c == ' '
    || c == '\U{00A0}' || c == '\U{1680}' || ('\U{2000}' <= c <= '\U{200A}')
    || c == '\U{2028}' || c == '\U{2029}' || c == '\U{202F}' || c == '\U{205F}'
    || c == '\U{3000}' || c == '\U{FEFF}'
  }

  predicate AllSpace(s: string) {
    forall i :: 0 <= i < |s| ==> IsJsSpace(s[i])
  }

  function TrimStart(s: string): (r: string)
    ensures |r| <= |s|
    ensures r == s[|s| - |r|..]
    ensures |r| > 0 ==> !IsJsSpace(r[0])
    ensures AllSpace(s[..|s| - |r|])
    decreases |s|
  {
    if |s| > 0 && IsJsSpace(s[0]) then
      var r := TrimStart(s[1..]);
      assert s[..|s| - |r|] == [s[0]] + s[1..][..|s| - 1 - |r|];
      r
    else s
  }

  function TrimEnd(s: string): (r: string)
    ensures |r| <= |s|
    ensures r == s[..|r|]
    ensures |r| > 0 ==> !IsJsSpace(r[|r| - 1])
    ensures AllSpace(s[|r|..])
    decreases |s|
  {
    if |s| > 0 && IsJsSpace(s[|s| - 1]) then
      var r := TrimEnd(s[..|s| - 1]);
      assert s[|r|..] == s[..|s| - 1][|r|..] + [s[|s| - 1]];
      r
    else s
  }

  /** Trimming both ends leaves nothing exactly when every character is white space. */
  lemma TrimmedEmpty(s: string)
    ensures |TrimEnd(TrimStart(s))| == 0 <==> AllSpace(s)
  {
    var t := TrimStart(s);
    var r := TrimEnd(t);
    if |t| > 0 {
      assert t[0] == s[|s| - |t|];
      assert !AllSpace(s);
      assert t[0..][0] == t[0];
    } else {
      assert s[..|s| - |t|] == s;
    }
  }

  /** `s.trim()`: the text with leading and trailing white space removed; it is empty
      exactly when `s` holds nothing but white space. */
  function Trim(s: string): (r: string)
    ensures |r| > 0 ==> !IsJsSpace(r[0]) && !IsJsSpace(r[|r| - 1])
    ensures |r| == 0 <==> AllSpace(s)
  {
    TrimmedEmpty(s);
    TrimEnd(TrimStart(s))
  }
}

=== FILE: wrappers.dfy ===
/** Optional values and results with an error, shared by every module of the model.
    `None` stands for JavaScript's `undefined`/`null`; `Failure` for a thrown error. */
module Wrappers {

  datatype Option<+T> = None | Some(value: T) {

    /** The value, or `default` when there is none. */
    function GetOr(default: T): T {
      match this
      case Some(v) => v
      case None => default
    }
  }

  datatype Result<+R, +E> = Success(value: R) | Failure(error: E)
}
